=== FILE: README.md ===
# egret-core WebGL renderer and display properties, modelled in Dafny

This project models two parts of the egret-core engine.

The first part is the frame traversal and compositing engine of the native WebGL renderer, `WebGLRenderer`.
`render` walks a display-object tree and returns the number of draw calls it issued. For each node it
decides whether to redraw or skip it by testing the node's render region against the dirty regions
and the active clip region. Each child goes down exactly one compositing path: filters, blend
mode or mask, scroll rect, or plain recursion. Several paths exit early with zero draw calls.
Off-screen buffers are borrowed from a module-level pool and always handed back. The pool is trimmed
when the outermost `render` returns.

The second part is the property state machines of `Bitmap`, `Stage` and `Texture`. Each setter
normalises its input. It does nothing when the value is unchanged. Otherwise it stores the value,
raises a dirty bit and invalidates.

Everything is functional. The display tree and the render nodes are immutable datatypes. The state
the renderer mutates is threaded explicitly through functions that return the draw-call count:
the pool, the shared context (composite operation and `$filter`), and the current buffer (transform,
global alpha, mask depth, scissor flag).

Files:

- `common.dfy`: `Option`, `Result` (a value or a thrown `Error`), JavaScript numbers with NaN, `+x || 0`, `>>> 0` and int32 reinterpretation.
- `geometry.dfy`: rectangles, affine matrices, integer regions, and the dirty-list search.
- `buffers.dfy`: buffers, the shared context, the blend-mode table, the buffer pool, `createRenderBuffer` and the pool trim.
- `render_nodes.dfy`: render nodes and the per-node drawing (`renderNode`, `renderBitmap`, `renderMesh`, `renderGroup`, canvas sizing for text and graphics).
- `display_tree.dfy`: the display-object tree as the renderer reads it, and the choice of compositing path.
- `renderer.dfy`: `render`, `drawDisplayObject`, `drawWithFilter`, `drawWithClip` and `drawWithScrollRect`, as mutually recursive functions.
- `renderer_lemmas.dfy`: the draw-call count does not depend on buffer or pool state; hidden subtrees draw nothing.
- `textures.dfy`, `bitmaps.dfy`, `stages.dfy`: the `Texture`, `Bitmap` and `Stage` state machines.

Assumptions about classes whose code is not part of this model:

- `Region` is an integer box. `intersects` means the two boxes share positive area. `intersect` is the common box, or empty. `isEmpty` means non-positive extent. `updateRegion` is the floor/ceiling bounding box of the four transformed corners. `Region.create()` is empty.
- `Matrix` is a real affine map. `$preMultiplyInto(first, ...)` applies `first`, then the receiver.
- `DisplayList.drawToSurface()` is an arbitrary non-negative count.
- `$getConcatenatedMatrixAt` and `$getConcatenatedAlphaAt` are arbitrary functions of the object and the ancestor.
- On a buffer, `resize(w, h)` only sets the size. `pushMask`/`popMask` raise and lower a mask depth. `enableScissor`/`disableScissor` set and clear `$hasScissor`.

`TrimPool` models WebGLRenderer.ts lines 74-83: the pool is truncated to six entries and each kept entry is resized to 0x0.

Quirks of the source that are modelled as written:

- `invertedMatrix` is never assigned, so the mask region is never moved into the cached surface's space (`MaskRegion`).
- When a mask is present, the first `offsetM` matrix is overwritten without being released. `Shared.leakedMatrices` counts these.
- The no-mask, no-children path of `drawWithClip` passes no render-texture root.
- The frame-rate panel (`isFPS`) is drawn, but its draw calls are not counted.
- `renderBitmap` restores the composite operation to the default, not to its previous value.
- The line-446 `pushMask` is issued through the context, whose current buffer at that point is the destination. So the mask is pushed on, and popped from, the destination.

## Model

| member | source | states |
|---|---|---|
| `Renderer.Render` | src/egret/native2/rendering/webgl/WebGLRenderer.ts:57-85 | The nesting level is restored. When the outermost call returns, the pool holds at most 6 buffers, all 0x0. Inner calls never shrink the pool. The buffer's mask depth, the scissor, pool cleanliness and the default context are kept. |
| `Renderer.RedrawDecision` | src/egret/native2/rendering/webgl/WebGLRenderer.ts:106-145 | A node is drawn iff there is no dirty list, or (no clip, or the clip intersects its region) and (it was flagged, or it hits some dirty region). `needRedraw` is false afterwards in every case. |
| `Renderer.SourceOf` | src/egret/native2/rendering/webgl/WebGLRenderer.ts:96-104 | A cached surface outside a render-texture pass supplies the node, plus the `drawToSurface` calls when dirty. Otherwise the object's own node is used and there are no surface calls. |
| `Renderer.DrawOwnNode` | src/egret/native2/rendering/webgl/WebGLRenderer.ts:93-146 | The count is the surface calls plus exactly one iff the node is drawn. The pool and leak count are untouched. Only the buffer's transform and alpha may change. An undrawn node changes nothing. |
| `Renderer.DrawDisplayObject` | src/egret/native2/rendering/webgl/WebGLRenderer.ts:91-186 | Leaves the buffer's mask depth, scissor and size as found. Keeps the pool clean, never shrinks it, and does not leave a filter or a non-default op. Only masks leak matrices. A cached surface outside a render-texture pass counts only its own node and surface calls, and touches no pool buffer. |
| `Renderer.DrawChildren` | src/egret/native2/rendering/webgl/WebGLRenderer.ts:147-183 | The loop past the last child counts 0 and changes nothing. The state facts of `DrawDisplayObject` are kept across the whole loop. Hidden children are handled by `RendererLemmas.HiddenChildSkipped` and the count by `RendererLemmas.ChildrenCountIsSum`. |
| `RendererLemmas.HiddenChildSkipped` | src/egret/native2/rendering/webgl/WebGLRenderer.ts:154-158 | A hidden child is skipped: the loop from its index gives exactly what the loop from the next index gives on the same buffer and state. |
| `Renderer.DrawChild` | src/egret/native2/rendering/webgl/WebGLRenderer.ts:154-181 | A hidden child (invisible, alpha <= 0, or acting as a mask) counts 0 and changes nothing. A plain frame-rate panel counts 0. The state facts are kept. |
| `DisplayTree.Route` | src/egret/native2/rendering/webgl/WebGLRenderer.ts:155-181 | Each child takes exactly one path. The order of precedence is: hidden, then filters, then blend mode or active mask, then scroll/mask rect, then plain. Each path is characterised by an iff. |
| `Renderer.DrawWithFilter` | src/egret/native2/rendering/webgl/WebGLRenderer.ts:191-267 | A lone colorTransform filter on an object without a child array takes no pool buffer. It leaves `$filter` null and a blended op back at default. Otherwise a buffer the size of the object's region is returned to the pool, the count is never exactly 1, and with nothing drawn the destination is untouched. The count itself is stated by `RendererLemmas.FilterCountFollowsInner`. |
| `Renderer.ClipRegion` | src/egret/native2/rendering/webgl/WebGLRenderer.ts:300-334 | The clip exists iff there is a scroll/mask rect or a mask. With both, it is the intersection of the rect's region and the mask's unadjusted region. With the rect alone, it is the rect's region under the clip matrix. With the mask alone, it is the mask's region. |
| `Renderer.DrawWithClip` | src/egret/native2/rendering/webgl/WebGLRenderer.ts:272-468 | Returns 0 and changes nothing when the mask is degenerate, the clip is empty or misses the active clip, or no dirty region touches the area. This includes a scroll rect and a mask that do not overlap. On the off-screen path, the count is never 1, the content buffer is back in the pool, and the op is default. The count itself is stated by `RendererLemmas.ClipCountFollowsInner`. |
| `Renderer.ClipDirect` | src/egret/native2/rendering/webgl/WebGLRenderer.ts:366-388 | Without mask or children, the object is drawn in place. Every mask push is matched by a pop on the same buffer, and a blended op is reset to default. The count, and the inner draw without a render-texture root, are stated by `RendererLemmas.ClipDirectCountIsInner`. |
| `Renderer.ClipOffscreen` | src/egret/native2/rendering/webgl/WebGLRenderer.ts:389-467 | The content buffer has the clip area's size and is returned to the pool. The count is 0 or at least 2. The composite op ends at default. The exact count is stated by `RendererLemmas.ClipOffscreenCountFollowsInner`. |
| `Renderer.MaskPass` | src/egret/native2/rendering/webgl/WebGLRenderer.ts:399-431 | With a mask, a buffer of the area's size is returned to the pool and one more matrix is leaked (exactly one if the mask holds no masks). Without a mask, nothing happens. The content buffer's mask depth is kept. The calls the mask adds are stated by `RendererLemmas.MaskCountIsInner`. |
| `RendererLemmas.MaskCountIsInner` | src/egret/native2/rendering/webgl/WebGLRenderer.ts:400-431 | Without a mask the pass adds 0 calls. With one, it adds exactly the mask's own count under the area, measured on the pass's own buffer and state. A mask that drew nothing adds nothing. |
| `RendererLemmas.ClipDirectCountIsInner` | src/egret/native2/rendering/webgl/WebGLRenderer.ts:366-388 | In place, the count is exactly the object's own count with the clip area as clip and with no render-texture root, whatever root the caller had. |
| `RendererLemmas.ClipOffscreenCountFollowsInner` | src/egret/native2/rendering/webgl/WebGLRenderer.ts:389-467 | Off-screen, let `k` be the object's count under the clip area plus the mask's count (0 without a mask), both measured on the caller's buffer and state. The count is `k + 1` when `k > 0`, and 0 otherwise (`OffscreenCount`). |
| `RendererLemmas.ClipCountFollowsInner` | src/egret/native2/rendering/webgl/WebGLRenderer.ts:272-468 | `drawWithClip` counts 0 when skipped. In place it counts as `ClipDirectCountIsInner` says, and off-screen as `ClipOffscreenCountFollowsInner` says. |
| `Renderer.CompositeBack` | src/egret/native2/rendering/webgl/WebGLRenderer.ts:437-460 | One extra call iff the running total is positive. Nothing happens otherwise. The push/pop around the composite leave the destination's mask depth as found. |
| `Renderer.ScrollRegion` | src/egret/native2/rendering/webgl/WebGLRenderer.ts:491-494 | An empty scroll rect gives an empty region. |
| `Renderer.DrawWithScrollRect` | src/egret/native2/rendering/webgl/WebGLRenderer.ts:473-551 | Returns 0 and changes nothing on a zero-sized rect, an empty region, a missed clip or no dirty hit. Otherwise the transform is left at the placed scroll matrix, and the chosen scissor or mask is undone, so depth and scissor are as found. The object is drawn onto `ScrollClipped`'s buffer; the count is stated by `RendererLemmas.ScrollCountIsInner`. |
| `Renderer.ScrollClipped` | src/egret/native2/rendering/webgl/WebGLRenderer.ts:520-536 | The buffer the object is drawn into is placed at the scroll matrix plus the caller's translation, and keeps its size and alpha. A hardware scissor is switched on iff `UseScissor` holds (no scissor already active, no rotation or skew); then the mask depth is unchanged. Otherwise one mask level is pushed and the scissor flag is kept. |
| `RendererLemmas.FilterCountFollowsInner` | src/egret/native2/rendering/webgl/WebGLRenderer.ts:191-267 | Measured against drawing the object onto the caller's own buffer and state: in place, the count is that count. Off-screen, with the object's region as clip, it is that count plus one composite call when that count is positive, and 0 otherwise. |
| `RendererLemmas.ScrollCountIsInner` | src/egret/native2/rendering/webgl/WebGLRenderer.ts:473-551 | When the scroll rect is not skipped, the count is exactly what drawing the object onto the caller's own buffer and state reports with the scroll region as the clip. |
| `RendererLemmas.ChildrenCountIsSum` | src/egret/native2/rendering/webgl/WebGLRenderer.ts:150-183 | The child loop's count equals the sum of every remaining child's count, each drawn by itself onto the loop's starting buffer and state (`ChildCallsFrom`). Threading the state from child to child changes no child's count. |
| `RendererLemmas.DrawCallsIndependent` | src/egret/native2/rendering/webgl/WebGLRenderer.ts:91-186 | The draw-call count of a subtree does not depend on the destination buffer, the pool, the context or the placement matrix. |
| `RendererLemmas.HiddenChildrenDrawNothing` | src/egret/native2/rendering/webgl/WebGLRenderer.ts:154-157 | A run of hidden children counts 0 and leaves buffer and shared state exactly as found. |
| `RendererLemmas.HiddenSubtreeDrawsNothing` | src/egret/native2/rendering/webgl/WebGLRenderer.ts:91-186 | An undrawn node whose children are all hidden reports 0 calls and changes nothing. |
| `Buffers.BlendTable` | src/egret/native2/rendering/webgl/WebGLRenderer.ts:32 | Indices 0-2 map to source-over, lighter and destination-out. Any other index is undefined. |
| `Buffers.CompositeFor` | src/egret/native2/rendering/webgl/WebGLRenderer.ts:197-200 | An undefined table entry falls back to the default op. The result is never undefined or destination-in. |
| `Buffers.CreateRenderBuffer` | src/egret/native2/rendering/webgl/WebGLRenderer.ts:929-939 | Pops the last pooled buffer and resizes it, or makes a new clean one. The buffer has the requested size, and a clean pool yields a clean buffer. |
| `Buffers.TrimPool` | src/egret/native2/rendering/webgl/WebGLRenderer.ts:74-83 | Keeps the first min(n, 6) buffers, each resized to 0x0. |
| `Buffers.TrimPoolKeepsClean` | src/egret/native2/rendering/webgl/WebGLRenderer.ts:76-82 | Trimming keeps a clean pool clean, and every kept buffer is 0x0. |
| `Buffers.TrimPoolIdempotent` | src/egret/native2/rendering/webgl/WebGLRenderer.ts:74-83 | Trimming twice equals trimming once. |
| `Geometry.FirstHitFrom` | src/egret/native2/rendering/webgl/WebGLRenderer.ts:112-121 | The early-break search finds a hit iff some dirty region from the start index on intersects the region. |
| `RenderNodes.RenderNodeOn` | src/egret/native2/rendering/webgl/WebGLRenderer.ts:578-599 | The dispatch changes only the buffer's alpha, keeps a null filter and a default op, and a SetAlpha node only sets alpha to its value. |
| `RenderNodes.RenderBitmap` | src/egret/native2/rendering/webgl/WebGLRenderer.ts:604-651 | Without an image, nothing happens. Otherwise it draws one image per started octet of draw data and restores transform and alpha. It clears a filter it set, and puts a blended op back to the default. |
| `RenderNodes.RenderMesh` | src/egret/native2/rendering/webgl/WebGLRenderer.ts:656-674 | One mesh per started octet. Buffer and context are restored exactly. |
| `RenderNodes.RenderGroupFrom` | src/egret/native2/rendering/webgl/WebGLRenderer.ts:917-924 | A group dispatches its nodes in order. Only alpha may change, and a clean context stays clean. |
| `RenderNodes.NoSetAlphaKeepsBuffer` | src/egret/native2/rendering/webgl/WebGLRenderer.ts:578-599 | A node with no SetAlpha node anywhere inside leaves the buffer unchanged. |
| `RenderNodes.GroupLastSetAlphaWins` | src/egret/native2/rendering/webgl/WebGLRenderer.ts:917-924 | When a group ends in SetAlpha(v), the buffer's alpha afterwards is v. |
| `RenderNodes.Octets` | src/egret/native2/rendering/webgl/WebGLRenderer.ts:630-640 | The draw loop runs once per started group of eight values. |
| `RenderNodes.CanvasSide` | src/egret/native2/rendering/webgl/WebGLRenderer.ts:694-701 | The scratch canvas side is a power of two, at least 2 and at least the size. Half of it is below the size, unless it is 2. |
| `RenderNodes.CanvasSideIsLeast` | src/egret/native2/rendering/webgl/WebGLRenderer.ts:806-813 | No power of two from 2 up that covers the size is smaller than the canvas side. |
| `Textures.NewTexture` | src/egret/core/display/Texture.ts:66-170 | A new texture has no bitmap data and no invalidations. The atlas rectangle, the offsets, the texture size and the source size are all 0. |
| `Textures.InitData` | src/egret/core/display/Texture.ts:220-238 | The atlas rectangle is stored so that multiplying by the scale gives back the arguments, and the scaled getters return them. Offsets, texture size and source size are stored as passed. One invalidation. |
| `Textures.SetBitmapData` | src/egret/core/display/Texture.ts:185-204 | A null value is stored, and then the read of its width throws a `TypeError`; nothing else changes. Otherwise nothing is thrown, the data is stored, and origin and offsets are 0. Texture size and scaled bitmap size are the data size times the scale. Source size and unscaled bitmap size are the data size. |
| `Textures.Dispose` | src/egret/core/display/Texture.ts:319-324 | Releases the bitmap data iff present and forgets it. Nothing else changes. |
| `Textures.DisposeTwiceIsNoOp` | src/egret/core/display/Texture.ts:319-324 | A second `dispose` releases nothing and leaves the texture as the first one left it. |
| `Textures.GetPixel32` | src/egret/core/display/Texture.ts:243-245 | Always throws. |
| `Textures.GetPixels` | src/egret/core/display/Texture.ts:266-268 | Always throws. |
| `Textures.ToDataURL` | src/egret/core/display/Texture.ts:285-287 | Always throws. |
| `Textures.SaveToFile` | src/egret/core/display/Texture.ts:306-308 | Always throws. |
| `Bitmaps.SetBitmapData` | src/egret/core/display/Bitmap.ts:112-120 | Nothing for the same data. Otherwise it stores the data, drops the texture, raises DirtyBitmapData and invalidates the bounds once. Nothing else changes. The pair stays exclusive. |
| `Bitmaps.SetTexture` | src/egret/core/display/Bitmap.ts:141-149 | Nothing for the same texture. Otherwise it stores the texture, drops the bitmap data, raises DirtyBitmapData and invalidates the bounds once. Nothing else changes. The pair stays exclusive. |
| `Bitmaps.SetSmoothing` | src/egret/core/display/Bitmap.ts:174-182 | Nothing when unchanged. Otherwise it stores the value, raises DirtySmoothing and invalidates once. |
| `Bitmaps.SetScale9Grid` | src/egret/core/display/Bitmap.ts:248-252 | Always stores the grid, raises DirtyScale9Grid and invalidates, even for the grid already held. |
| `Bitmaps.SetFillMode` | src/egret/core/display/Bitmap.ts:282-289 | Nothing when unchanged. Otherwise it stores the mode, raises DirtyFillMode and invalidates the bounds once. |
| `Bitmaps.SetExplicit` | src/egret/core/display/Bitmap.ts:322-325 | NaN becomes 0. The assignment happens iff the value is non-negative and differs from the stored one. |
| `Bitmaps.SetWidth` | src/egret/core/display/Bitmap.ts:321-328 | Ignored or stored per `SetExplicit`, with one bounds invalidation when stored. Explicit sizes stay non-negative. |
| `Bitmaps.SetHeight` | src/egret/core/display/Bitmap.ts:336-343 | As `SetWidth`, for the height. |
| `Bitmaps.GetWidth` | src/egret/core/display/Bitmap.ts:317-319 | The explicit width if set, else the measured width. |
| `Bitmaps.GetHeight` | src/egret/core/display/Bitmap.ts:332-334 | The explicit height if set, else the measured height. |
| `Bitmaps.MeasureContentBounds` | src/egret/core/display/Bitmap.ts:348-366 | The bounds sit at (0, 0). Each side is the explicit size, else the bitmap data's, else the texture's, else 0. |
| `Bitmaps.NewBitmap` | src/egret/core/display/Bitmap.ts:68-77 | A texture goes through the texture setter and anything else through the data setter. The result is well formed, and no bit is raised for no data. |
| `Bitmaps.Apply` | src/egret/core/display/Bitmap.ts:112-343 | Every setter keeps the state well formed and never clears a dirty bit. |
| `Bitmaps.RunKeepsWellFormed` | src/egret/core/display/Bitmap.ts:112-149 | From any well-formed state, any sequence of assignments never holds bitmap data and a texture at once, never stores a negative explicit size, and never clears a dirty bit. |
| `Bitmaps.RepeatIsNoOp` | src/egret/core/display/Bitmap.ts:112-343 | Repeating any assignment other than `scale9Grid` changes nothing. |
| `Bitmaps.RepeatScale9GridInvalidatesTwice` | src/egret/core/display/Bitmap.ts:248-252 | Repeating a `scale9Grid` assignment invalidates again. |
| `Bitmaps.WidthReadsBack` | src/egret/core/display/Bitmap.ts:317-328 | After assigning a non-negative width v, the width getter reads v. |
| `Bitmaps.NaNWidthReadsZero` | src/egret/core/display/Bitmap.ts:321-328 | After assigning NaN, the width getter reads 0. |
| `Bitmaps.TextureSizesContent` | src/egret/core/display/Bitmap.ts:356-360 | A new texture on a bitmap without explicit size gives content bounds of the texture's size. |
| `Stages.NewStage` | src/egret/core/display/Stage.ts:48-58 | Throws with its message iff the guard is raised. Otherwise the stage has the initial field values: only DirtyFrameRate raised, the non-int32 colour 0xFFFFFFFF, stage and screen sizes 0, content size 480x800, pixel ratio 1, modes "noScale" and "standard", no display rule, no invalidations, RESIZE events or screen updates, and the ticker's rate untouched. |
| `Stages.StoredColor` | src/egret/core/display/Stage.ts:76-78 | The stored colour is a negative int32 whose low 24 bits are the input's and whose alpha byte is 0xFF. |
| `Stages.SetColor` | src/egret/core/display/Stage.ts:76-85 | Nothing for the colour already stored. Otherwise it stores the colour, raises DirtyColor and invalidates once. |
| `Stages.ColorRepeatIsNoOp` | src/egret/core/display/Stage.ts:76-85 | Assigning the same colour a second time changes nothing: no second DirtyColor and no second invalidation. |
| `Stages.WhiteOnFreshStageIsAChange` | src/egret/core/display/Stage.ts:67-85 | Assigning 0xFFFFFFFF to a new stage stores -1, raises DirtyColor and invalidates. |
| `Stages.SetFrameRate` | src/egret/core/display/Stage.ts:97-108 | Changes the stage iff the coerced rate is positive and differs from the ticker's. Then the ticker takes it, DirtyFrameRate is raised and the stage invalidated. A positive rate stays positive. |
| `Stages.UpdateDisplayRule` | src/egret/core/display/Stage.ts:243-266 | `Recomputed` holds: the rule takes the adapter's sizes and centres the display on the screen on both axes. Content scale is the pixel ratio iff the mode is "high", else 1. DirtyDisplayRule is always raised, with one invalidation. One RESIZE is dispatched iff the stage size changed, and the stage takes the new size. Nothing else changes. |
| `Stages.SecondUpdateDispatchesNoResize` | src/egret/core/display/Stage.ts:261-265 | Recomputing the rule again right away dispatches no second RESIZE. |
| `Stages.SetScaleMode` | src/egret/core/display/Stage.ts:150-156 | Nothing when unchanged. Otherwise it stores the mode, and `Recomputed` holds for the stage with the new mode: the adapter's stage and display sizes for that mode, centring, content scale, DirtyDisplayRule, one invalidation, and RESIZE iff the stage size changed. Every other field is as it was. |
| `Stages.SetResolutionMode` | src/egret/core/display/Stage.ts:170-176 | Nothing when unchanged. Otherwise it stores the mode, `Recomputed` holds for the stage with the new mode, and the rule's content scale follows the new mode. Every other field is as it was. |
| `Stages.SetContentSize` | src/egret/core/display/Stage.ts:193-202 | NaN becomes 0. Nothing happens when both sides are unchanged. Otherwise both are stored, and `Recomputed` holds for the stage with the new content size: the adapter's sizes for it, centring, content scale, DirtyDisplayRule, one invalidation, and RESIZE iff the stage size changed. Every other field is as it was. |
| `Stages.UpdateScreenSize` | src/egret/core/display/Stage.ts:221-233 | NaN becomes 0. Nothing happens when width, height and ratio are all unchanged. Otherwise they are stored, one screen update is requested, and `Recomputed` holds for the stage with the new screen: the adapter's sizes for it, centring on both axes on the new screen, content scale under the new ratio, DirtyDisplayRule, one invalidation, and RESIZE iff the stage size changed. Every other field is as it was. |
| `Stages.RefusedDefault` | src/egret/core/display/Stage.ts:285-302 | The default each refused property reads as, grouped by value. |
| `Stages.ReadRefused` | src/egret/core/display/Stage.ts:272-276 | A refused property reads as its fixed default. |
| `Stages.WriteRefused` | src/egret/core/display/Stage.ts:272-283 | Assigning a refused property always throws its message. |

The getters `Textures.TextureWidth`, `Textures.TextureHeight`, `Textures.ScaleBitmapWidth` and `Textures.ScaleBitmapHeight` (Texture.ts lines 117-154), and `Stages.FrameRate` (Stage.ts lines 93-95), read one field each, scaling it where needed. They carry no contract of their own. The rows of `NewTexture`, `InitData`, `SetBitmapData` and `SetFrameRate` use them to state what the getters return.

## Left out

- GPU and native work is counted only as draw calls or primitives: `drawImage`, `drawTexture`, `drawMesh`, `drawTargetWidthFilters`, `$drawWebGL`, `pushBuffer`/`popBuffer`, and the Skia calls of `renderText`/`renderGraphics`.
- `renderText` and `renderGraphics` are dispatched by `RenderNodeOn` as one composite call each. Their canvas-side computation is modelled separately by `CanvasSide`, and the dispatch does not call it. Graphics colour forcing for hit tests and `drawNodeToBuffer` are not modelled.
- The code after the `return` in `renderGraphics` (WebGLRenderer.ts lines 857-914) is unreachable and is not modelled.
- Render: the source returns the buffer's own `$drawCalls` counter, which belongs to `WebGLRenderBuffer` and is not part of this model. The model returns the traversal's count instead.
- The write-back of `needRedraw` into the shared render node is not threaded into the tree. `RedrawDecision` states the flag's final value instead, which is false on every path.
- A mask is held as a value snapshot inside its owner. Cyclic or shared masks cannot be expressed, so the traversal terminates structurally.
- Float pixel arithmetic is not modelled: the scissor rectangle formula (WebGLRenderer.ts lines 527-535), the exact transform offsets, and IEEE rounding. Matrices and Texture scaling use exact reals.
- The Matrix and Region create/release pools are not modelled. Only the leaked first `offsetM` is counted.
- Textures.InitData: requires a positive `$TextureScaleFactor`. The source would divide by 0 if the factor were 0.
- `Texture.dispose` on the `BitmapData` itself is external. The model reports which data was released.
- `Bitmap.pixelHitTest` only stores `!!value`, and `setSmoothing`'s `!!` coercion is taken as already applied: the model's inputs are booleans.
- `Stage.invalidate` only forwards to the ticker and is not modelled. The ticker's `setFrameRate` is taken to store the rate as given.
- `$invalidate`, `$invalidateContentBounds`, `requestScreenUpdate` and RESIZE dispatch are recorded as counters, not executed.
- BitmapText.ts is not part of this model. Its layout and rendering code is commented out, and the record its setters use is never initialised.
- RenderBuffer.ts is an interface only. ProgressEvent.ts and ImageLoader.ts are event dispatch and I/O. NativeBitmapData.ts calls a foreign serializer. callLater.ts only queues opaque callbacks. None of them is modelled.

=== FILE: bitmaps.dfy ===
/**
 * `egret.Bitmap` (Bitmap.ts): the property setters, the size getters and content-bounds measurement.
 *
 * Every setter normalises its input, returns early when the value is unchanged (except
 * `setScale9Grid`), and otherwise stores the value, ORs a dirty bit into `$bitmapBits` and
 * invalidates. The two invalidation calls inherited from `DisplayObject` are counted.
 */
module Bitmaps {
  import opened Common
  import opened Geometry
  import opened Textures

  /** The `sys.BitmapBits` flags the setters raise. */
  datatype BitmapBit = DirtyBitmapData | DirtySmoothing | DirtyScale9Grid | DirtyFillMode

  datatype Bitmap = Bitmap(
    bitmapData: Option<BitmapData>,
    texture: Option<Texture>,
    /** `$bitmapBits` as the set of raised flags */
    bits: set<BitmapBit>,
    smoothing: bool,
    scale9Grid: Option<Rect>,
    fillMode: string,
    explicitWidth: Num,
    explicitHeight: Num,
    /** calls to `$invalidateContentBounds()` */
    boundsInvalidations: nat,
    /** calls to `$invalidate()` */
    renderInvalidations: nat)

  /** `BitmapFillMode.SCALE`. */
  const ScaleMode: string := "scale"

  /** The field initialisers of lines 82-315. */
  const Fresh: Bitmap := Bitmap(None, None, {}, true, None, ScaleMode, NaN, NaN, 0, 0)

  /** Loose equality of two references to bitmap data: both null, or the same object. */
  predicate SameData(a: Option<BitmapData>, b: Option<BitmapData>) {
    (a.None? && b.None?) || (a.Some? && b.Some? && a.value.id == b.value.id)
  }

  predicate SameTexture(a: Option<Texture>, b: Option<Texture>) {
    (a.None? && b.None?) || (a.Some? && b.Some? && a.value.id == b.value.id)
  }

  /** The pair is never both set. */
  predicate Exclusive(b: Bitmap) {
    b.bitmapData.None? || b.texture.None?
  }

  /** Explicit sizes, once set, are never negative. */
  predicate WellFormed(b: Bitmap) {
    && Exclusive(b)
    && (b.explicitWidth.Finite? ==> b.explicitWidth.v >= 0.0)
    && (b.explicitHeight.Finite? ==> b.explicitHeight.v >= 0.0)
  }

  /**
   * `setBitmapData` (lines 112-120): nothing happens for the data already held; otherwise it is stored,
   * the texture is dropped, DirtyBitmapData is raised and the content bounds are invalidated.
   */
  function SetBitmapData(b: Bitmap, value: Option<BitmapData>): (r: Bitmap)
    ensures SameData(value, b.bitmapData) ==> r == b
    ensures !SameData(value, b.bitmapData) ==>
      && r.bitmapData == value && r.texture.None?
      && r.bits == b.bits + {DirtyBitmapData}
      && r.boundsInvalidations == b.boundsInvalidations + 1
      && r.(bitmapData := b.bitmapData, texture := b.texture, bits := b.bits, boundsInvalidations := b.boundsInvalidations) == b
    ensures Exclusive(b) ==> Exclusive(r)
  {
    if SameData(value, b.bitmapData) then b
    else b.(bitmapData := value, texture := None, bits := b.bits + {DirtyBitmapData},
            boundsInvalidations := b.boundsInvalidations + 1)
  }

  /**
   * `setTexture` (lines 141-149): nothing happens for the texture already held; otherwise it is stored,
   * the bitmap data is dropped, DirtyBitmapData is raised and the content bounds are invalidated.
   */
  function SetTexture(b: Bitmap, value: Option<Texture>): (r: Bitmap)
    ensures SameTexture(value, b.texture) ==> r == b
    ensures !SameTexture(value, b.texture) ==>
      && r.texture == value && r.bitmapData.None?
      && r.bits == b.bits + {DirtyBitmapData}
      && r.boundsInvalidations == b.boundsInvalidations + 1
      && r.(bitmapData := b.bitmapData, texture := b.texture, bits := b.bits, boundsInvalidations := b.boundsInvalidations) == b
    ensures Exclusive(b) ==> Exclusive(r)
  {
    if SameTexture(value, b.texture) then b
    else b.(texture := value, bitmapData := None, bits := b.bits + {DirtyBitmapData},
            boundsInvalidations := b.boundsInvalidations + 1)
  }

  /** `setSmoothing` (lines 174-182), given the input already coerced by `!!`. */
  function SetSmoothing(b: Bitmap, value: bool): (r: Bitmap)
    ensures value == b.smoothing ==> r == b
    ensures value != b.smoothing ==>
      r == b.(smoothing := value, bits := b.bits + {DirtySmoothing}, renderInvalidations := b.renderInvalidations + 1)
    ensures r.smoothing == value
  {
    if value == b.smoothing then b
    else b.(smoothing := value, bits := b.bits + {DirtySmoothing}, renderInvalidations := b.renderInvalidations + 1)
  }

  /** `setScale9Grid` (lines 248-252): stores and marks dirty unconditionally, even for the grid already held. */
  function SetScale9Grid(b: Bitmap, value: Option<Rect>): (r: Bitmap)
    ensures r.scale9Grid == value && DirtyScale9Grid in r.bits
    ensures r.renderInvalidations == b.renderInvalidations + 1
    ensures r.(scale9Grid := b.scale9Grid, bits := b.bits, renderInvalidations := b.renderInvalidations) == b
  {
    b.(scale9Grid := value, bits := b.bits + {DirtyScale9Grid}, renderInvalidations := b.renderInvalidations + 1)
  }

  /** `setFillMode` (lines 282-289): nothing for an unchanged mode; otherwise store, mark, invalidate bounds. */
  function SetFillMode(b: Bitmap, value: string): (r: Bitmap)
    ensures value == b.fillMode ==> r == b
    ensures value != b.fillMode ==>
      r == b.(fillMode := value, bits := b.bits + {DirtyFillMode}, boundsInvalidations := b.boundsInvalidations + 1)
    ensures r.fillMode == value
  {
    if value == b.fillMode then b
    else b.(fillMode := value, bits := b.bits + {DirtyFillMode}, boundsInvalidations := b.boundsInvalidations + 1)
  }

  /** The shared rule of `setWidth`/`setHeight`: NaN becomes 0; negative or identical values are ignored. */
  function SetExplicit(current: Num, value: Num): (r: Option<Num>)
    ensures r.Some? <==> OrZero(value) >= 0.0 && current != Finite(OrZero(value))
    ensures r.Some? ==> r.value == Finite(OrZero(value))
  {
    var v := OrZero(value);
    if v < 0.0 || Finite(v) == current then None else Some(Finite(v))
  }

  /** `setWidth` (lines 321-328). */
  function SetWidth(b: Bitmap, value: Num): (r: Bitmap)
    ensures SetExplicit(b.explicitWidth, value).None? ==> r == b
    ensures SetExplicit(b.explicitWidth, value).Some? ==>
      r == b.(explicitWidth := Finite(OrZero(value)), boundsInvalidations := b.boundsInvalidations + 1)
    ensures WellFormed(b) ==> WellFormed(r)
  {
    var e := SetExplicit(b.explicitWidth, value);
    if e.None? then b else b.(explicitWidth := e.value, boundsInvalidations := b.boundsInvalidations + 1)
  }

  /** `setHeight` (lines 336-343). */
  function SetHeight(b: Bitmap, value: Num): (r: Bitmap)
    ensures SetExplicit(b.explicitHeight, value).None? ==> r == b
    ensures SetExplicit(b.explicitHeight, value).Some? ==>
      r == b.(explicitHeight := Finite(OrZero(value)), boundsInvalidations := b.boundsInvalidations + 1)
    ensures WellFormed(b) ==> WellFormed(r)
  {
    var e := SetExplicit(b.explicitHeight, value);
    if e.None? then b else b.(explicitHeight := e.value, boundsInvalidations := b.boundsInvalidations + 1)
  }

  /** `getWidth` (lines 317-319): the explicit width if one was set, else the measured width. */
  function GetWidth(b: Bitmap, measuredWidth: real): (w: real)
    ensures b.explicitWidth.Finite? ==> w == b.explicitWidth.v
    ensures b.explicitWidth.NaN? ==> w == measuredWidth
  {
    if b.explicitWidth.NaN? then measuredWidth else b.explicitWidth.v
  }

  /** `getHeight` (lines 332-334). */
  function GetHeight(b: Bitmap, measuredHeight: real): (h: real)
    ensures b.explicitHeight.Finite? ==> h == b.explicitHeight.v
    ensures b.explicitHeight.NaN? ==> h == measuredHeight
  {
    if b.explicitHeight.NaN? then measuredHeight else b.explicitHeight.v
  }

  /** The size the content has without an explicit size: the bitmap data's, else the texture's, else 0. */
  function NaturalWidth(b: Bitmap): real {
    if b.bitmapData.Some? then b.bitmapData.value.width
    else if b.texture.Some? then TextureWidth(b.texture.value)
    else 0.0
  }

  function NaturalHeight(b: Bitmap): real {
    if b.bitmapData.Some? then b.bitmapData.value.height
    else if b.texture.Some? then TextureHeight(b.texture.value)
    else 0.0
  }

  /**
   * `$measureContentBounds` (lines 348-366): always at the origin; each side is the explicit size if set,
   * else the bitmap data's, else the texture's, else 0.
   */
  function MeasureContentBounds(b: Bitmap): (r: Rect)
    ensures r.x == 0.0 && r.y == 0.0
    ensures r.width == GetWidth(b, NaturalWidth(b)) && r.height == GetHeight(b, NaturalHeight(b))
    ensures b.explicitWidth.NaN? && b.bitmapData.None? && b.texture.Some? ==> r.width == TextureWidth(b.texture.value)
    ensures b.explicitWidth.NaN? && b.bitmapData.None? && b.texture.None? ==> r.width == 0.0
  {
    if b.bitmapData.Some? then
      var d := b.bitmapData.value;
      Rect(0.0, 0.0, if b.explicitWidth.NaN? then d.width else b.explicitWidth.v,
                     if b.explicitHeight.NaN? then d.height else b.explicitHeight.v)
    else if b.texture.Some? then
      var t := b.texture.value;
      Rect(0.0, 0.0, if b.explicitWidth.NaN? then TextureWidth(t) else b.explicitWidth.v,
                     if b.explicitHeight.NaN? then TextureHeight(t) else b.explicitHeight.v)
    else
      Rect(0.0, 0.0, if b.explicitWidth.NaN? then 0.0 else b.explicitWidth.v,
                     if b.explicitHeight.NaN? then 0.0 else b.explicitHeight.v)
  }

  /** What `new Bitmap(value)` is given: a texture, or bitmap data (possibly none). */
  datatype Source = FromTexture(texture: Texture) | FromData(data: Option<BitmapData>)

  /** The constructor (lines 68-77): a texture goes through the texture setter, anything else through the bitmap-data setter. */
  function NewBitmap(value: Source): (r: Bitmap)
    ensures WellFormed(r)
    ensures value.FromTexture? ==> r.texture == Some(value.texture) && r.bitmapData.None? && r.bits == {DirtyBitmapData}
    ensures value.FromData? ==> r.bitmapData == value.data && r.texture.None?
    ensures value.FromData? ==> (r.bits == {} <==> value.data.None?)
  {
    match value
    case FromTexture(t) => SetTexture(Fresh, Some(t))
    case FromData(d) => SetBitmapData(Fresh, d)
  }

  /** One assignment through a public setter. */
  datatype Assign =
    | AssignBitmapData(data: Option<BitmapData>)
    | AssignTexture(texture: Option<Texture>)
    | AssignSmoothing(smooth: bool)
    | AssignScale9Grid(grid: Option<Rect>)
    | AssignFillMode(mode: string)
    | AssignWidth(width: Num)
    | AssignHeight(height: Num)

  function Apply(b: Bitmap, a: Assign): (r: Bitmap)
    ensures WellFormed(b) ==> WellFormed(r)
    ensures b.bits <= r.bits
  {
    match a
    case AssignBitmapData(d) => SetBitmapData(b, d)
    case AssignTexture(t) => SetTexture(b, t)
    case AssignSmoothing(s) => SetSmoothing(b, s)
    case AssignScale9Grid(g) => SetScale9Grid(b, g)
    case AssignFillMode(m) => SetFillMode(b, m)
    case AssignWidth(w) => SetWidth(b, w)
    case AssignHeight(h) => SetHeight(b, h)
  }

  /** A sequence of assignments, first to last. */
  function Run(b: Bitmap, assigns: seq<Assign>): Bitmap
    decreases |assigns|
  {
    if |assigns| == 0 then b else Run(Apply(b, assigns[0]), assigns[1..])
  }

  /**
   * From any well-formed state (in particular a freshly constructed bitmap), no sequence of assignments
   * ever holds bitmap data and a texture at once or a negative explicit size, and dirty bits are
   * never cleared by a setter.
   */
  lemma {:induction false} RunKeepsWellFormed(b: Bitmap, assigns: seq<Assign>)
    requires WellFormed(b)
    ensures WellFormed(Run(b, assigns))
    ensures b.bits <= Run(b, assigns).bits
    decreases |assigns|
  {
    if |assigns| > 0 {
      RunKeepsWellFormed(Apply(b, assigns[0]), assigns[1..]);
    }
  }

  /** Every setter but `setScale9Grid` ignores a repeated assignment. */
  lemma {:induction false} RepeatIsNoOp(b: Bitmap, a: Assign)
    requires !a.AssignScale9Grid?
    ensures Apply(Apply(b, a), a) == Apply(b, a)
  {
    match a
    case AssignBitmapData(d) =>
    case AssignTexture(t) =>
    case AssignSmoothing(s) =>
    case AssignFillMode(m) =>
    case AssignWidth(w) => assert SetExplicit(Apply(b, a).explicitWidth, w).None?;
    case AssignHeight(h) => assert SetExplicit(Apply(b, a).explicitHeight, h).None?;
  }

  /** `setScale9Grid` invalidates again on a repeated assignment of the same grid. */
  lemma RepeatScale9GridInvalidatesTwice(b: Bitmap, g: Option<Rect>)
    ensures SetScale9Grid(SetScale9Grid(b, g), g).renderInvalidations == b.renderInvalidations + 2
    ensures SetScale9Grid(SetScale9Grid(b, g), g) != SetScale9Grid(b, g)
  {
  }

  /** After `width = v` with v a non-negative number, the width getter reads v, whatever was measured. */
  lemma {:induction false} WidthReadsBack(b: Bitmap, v: real, measured: real)
    requires v >= 0.0
    ensures GetWidth(SetWidth(b, Finite(v)), measured) == v
  {
    if b.explicitWidth == Finite(v) {
      assert SetWidth(b, Finite(v)) == b;
    }
  }

  /** Assigning NaN to the width makes it 0. */
  lemma {:induction false} NaNWidthReadsZero(b: Bitmap, measured: real)
    ensures GetWidth(SetWidth(b, NaN), measured) == 0.0
  {
    if b.explicitWidth == Finite(0.0) {
      assert SetWidth(b, NaN) == b;
    }
  }

  /** A texture assigned to a bitmap without explicit size gives the content bounds the texture's size. */
  lemma TextureSizesContent(b: Bitmap, t: Texture)
    requires b.explicitWidth.NaN? && b.explicitHeight.NaN? && !SameTexture(Some(t), b.texture)
    ensures MeasureContentBounds(SetTexture(b, Some(t))) == Rect(0.0, 0.0, TextureWidth(t), TextureHeight(t))
  {
  }
}

=== FILE: buffers.dfy ===
/**
 * The render-target state the renderer reads and writes: off-screen buffers, the shared drawing context
 * and the module-level pool of idle buffers (`renderBufferPool`, WebGLRenderer.ts line 36).
 *
 * `WebGLRenderBuffer` and `WebGLRenderContext` are not part of this model's source text. A buffer is
 * reduced to the state the renderer touches: its size, transform, global alpha, the depth of its mask
 * stack and whether a hardware scissor is active. `resize(w, h)` only sets the size.
 */
module Buffers {
  import opened Common
  import opened Geometry

  /** The canvas composite operations the renderer selects. `Undefined` is `blendModes[i]` for an index past the table. */
  datatype CompositeOp = SourceOver | Lighter | DestinationOut | DestinationIn | Undefined

  const DefaultOp: CompositeOp := SourceOver

  /** `blendModes[mode]` (line 32): the table lookup, `undefined` outside the table. */
  function BlendTable(mode: int): (op: CompositeOp)
    ensures op.Undefined? <==> !(0 <= mode < 3)
    ensures mode == 0 ==> op == SourceOver
    ensures mode == 1 ==> op == Lighter
    ensures mode == 2 ==> op == DestinationOut
  {
    if mode == 0 then SourceOver
    else if mode == 1 then Lighter
    else if mode == 2 then DestinationOut
    else Undefined
  }

  /** `blendModes[mode] || defaultCompositeOp`, as drawWithFilter and drawWithClip compute it (lines 197-200, 277-280). */
  function CompositeFor(mode: int): (op: CompositeOp)
    ensures op != Undefined && op != DestinationIn
    ensures 0 <= mode < 3 ==> op == BlendTable(mode)
    ensures !(0 <= mode < 3) ==> op == DefaultOp
  {
    var op := BlendTable(mode);
    if op.Undefined? then DefaultOp else op
  }

  /** A filter attached to a display object or a bitmap node; only its `type` tag is consulted. */
  datatype Filter = Filter(kind: string)

  /** The shared `WebGLRenderContext`: its composite operation and the `$filter` applied to subsequent draws. */
  datatype Context = Context(op: CompositeOp, filter: Option<Filter>)

  const CleanContext: Context := Context(DefaultOp, None)

  datatype Buffer = Buffer(
    width: int,
    height: int,
    transform: Matrix,
    alpha: real,
    /** number of `pushMask` calls not yet matched by `popMask` */
    clipDepth: nat,
    /** `$hasScissor` */
    hasScissor: bool)

  function SetTransform(b: Buffer, m: Matrix): (r: Buffer)
    ensures r.transform == m
    ensures r == b.(transform := m)
  {
    b.(transform := m)
  }

  function SetAlpha(b: Buffer, alpha: real): (r: Buffer)
    ensures r.alpha == alpha && r == b.(alpha := alpha)
  {
    b.(alpha := alpha)
  }

  /** `context.pushMask(rect)` on the context's current buffer. */
  function PushMask(b: Buffer): (r: Buffer)
    ensures r.clipDepth == b.clipDepth + 1
    ensures r.(clipDepth := b.clipDepth) == b
  {
    b.(clipDepth := b.clipDepth + 1)
  }

  /** `context.popMask()`: popping an empty mask stack changes nothing. */
  function PopMask(b: Buffer): (r: Buffer)
    ensures b.clipDepth > 0 ==> r.clipDepth == b.clipDepth - 1
    ensures b.clipDepth == 0 ==> r == b
    ensures r.(clipDepth := b.clipDepth) == b
  {
    if b.clipDepth > 0 then b.(clipDepth := b.clipDepth - 1) else b
  }

  lemma PopUndoesPush(b: Buffer)
    ensures PopMask(PushMask(b)) == b
  {
  }

  /** `new WebGLRenderBuffer(w, h)`. */
  function NewBuffer(width: int, height: int): (r: Buffer)
    ensures r.width == width && r.height == height
    ensures Clean(r)
  {
    Buffer(width, height, Identity, 1.0, 0, false)
  }

  /** `buffer.resize(w, h)`: only the dimensions change. */
  function Resize(b: Buffer, width: int, height: int): (r: Buffer)
    ensures r.width == width && r.height == height
    ensures r.(width := b.width, height := b.height) == b
  {
    b.(width := width, height := height)
  }

  /** A buffer with no mask pushed and no scissor active, fit to be handed out again. */
  predicate Clean(b: Buffer) {
    b.clipDepth == 0 && !b.hasScissor
  }

  predicate PoolClean(pool: seq<Buffer>) {
    forall i :: 0 <= i < |pool| ==> Clean(pool[i])
  }

  /** Outcome of `createRenderBuffer`: the buffer handed out and the pool left behind. */
  datatype Taken = Taken(buffer: Buffer, pool: seq<Buffer>)

  /**
   * `createRenderBuffer(width, height)` (lines 929-939): pops the last pooled buffer and resizes it,
   * or makes a new one when the pool is empty.
   */
  function CreateRenderBuffer(pool: seq<Buffer>, width: int, height: int): (t: Taken)
    ensures t.buffer.width == width && t.buffer.height == height
    ensures |pool| > 0 ==> t.pool == pool[..|pool| - 1]
    ensures |pool| > 0 ==> t.buffer.(width := pool[|pool| - 1].width, height := pool[|pool| - 1].height) == pool[|pool| - 1]
    ensures |pool| == 0 ==> t.pool == [] && Clean(t.buffer)
    ensures PoolClean(pool) ==> PoolClean(t.pool) && Clean(t.buffer)
    ensures |t.pool| + 1 >= |pool|
  {
    if |pool| > 0 then
      Taken(Resize(pool[|pool| - 1], width, height), pool[..|pool| - 1])
    else
      Taken(NewBuffer(width, height), [])
  }

  /** Most buffers the pool keeps once the outermost render returns (line 76). */
  const PoolCap: nat := 6

  /**
   * The pool after the outermost `render` returns (lines 74-83): cut to its first `PoolCap` entries,
   * each of which is then resized to 0x0.
   */
  function TrimPool(pool: seq<Buffer>): (r: seq<Buffer>)
    ensures |r| == if |pool| > PoolCap then PoolCap else |pool|
    ensures forall i :: 0 <= i < |r| ==> r[i] == Resize(pool[i], 0, 0)
  {
    var kept := if |pool| > PoolCap then pool[..PoolCap] else pool;
    seq(|kept|, i requires 0 <= i < |kept| => Resize(kept[i], 0, 0))
  }

  /** Trimming keeps clean buffers clean and frees all their pixels. */
  lemma TrimPoolKeepsClean(pool: seq<Buffer>)
    requires PoolClean(pool)
    ensures PoolClean(TrimPool(pool))
    ensures forall i :: 0 <= i < |TrimPool(pool)| ==> TrimPool(pool)[i].width == 0 && TrimPool(pool)[i].height == 0
  {
    var r := TrimPool(pool);
    forall i | 0 <= i < |r|
      ensures Clean(r[i])
    {
      assert r[i] == Resize(pool[i], 0, 0);
    }
  }

  /** Trimming twice is the same as trimming once. */
  lemma TrimPoolIdempotent(pool: seq<Buffer>)
    ensures TrimPool(TrimPool(pool)) == TrimPool(pool)
  {
    var r := TrimPool(pool);
    var rr := TrimPool(r);
    assert |rr| == |r|;
    forall i | 0 <= i < |r|
      ensures rr[i] == r[i]
    {
      assert r[i] == Resize(pool[i], 0, 0);
    }
  }
}

=== FILE: common.dfy ===
/** Small shared vocabulary: optional values, thrown errors and JavaScript number coercions. */
module Common {

  /** A value that may be JavaScript `null` / `undefined`. */
  datatype Option<+T> = None | Some(value: T) {
    function GetOr(default: T): T {
      match this
      case Some(v) => v
      case None => default
    }
  }

  /** The outcome of an operation that may throw an `Error`. */
  datatype Result<+T> = Ok(value: T) | Thrown(message: string)

  /** A JavaScript number: either NaN or an ordinary (finite) value. */
  datatype Num = NaN | Finite(v: real)

  /** `+value || 0`: NaN (and any value that does not convert to a number) becomes 0. */
  function OrZero(x: Num): (r: real)
    ensures x.NaN? ==> r == 0.0
    ensures x.Finite? ==> r == x.v
  {
    match x
    case NaN => 0.0
    case Finite(v) => v
  }

  /** JavaScript truncation toward zero of a real (`Math.trunc`). */
  function Trunc(x: real): (r: int)
    ensures 0.0 <= x ==> r as real <= x < r as real + 1.0
    ensures x < 0.0 ==> r as real - 1.0 < x <= r as real
  {
    if x >= 0.0 then x.Floor else -((-x).Floor)
  }

  const TWO_32: int := 0x1_0000_0000
  const TWO_31: int := 0x8000_0000

  /** `x >>> 0`, the ECMAScript ToUint32 conversion of a number. */
  function ToUint32(x: Num): (r: int)
    ensures 0 <= r < TWO_32
    ensures x.Finite? ==> (r - Trunc(x.v)) % TWO_32 == 0
  {
    match x
    case NaN => 0
    case Finite(v) => Trunc(v) % TWO_32
  }

  /** Reinterprets an unsigned 32-bit pattern as a signed int32 (the result of JavaScript `|`). */
  function AsInt32(u: int): (r: int)
    requires 0 <= u < TWO_32
    ensures -TWO_31 <= r < TWO_31
    ensures (r - u) % TWO_32 == 0
  {
    if u >= TWO_31 then u - TWO_32 else u
  }

  predicate IsInt32(x: int) {
    -TWO_31 <= x < TWO_31
  }
}

=== FILE: display_tree.dfy ===
/**
 * The display-object tree as the renderer reads it. `DisplayObject`, `DisplayList` and the
 * concatenated-matrix queries are not part of this model's source text: a display object is reduced
 * to the properties WebGLRenderer.ts consults, and the queries that depend on an arbitrary ancestor
 * (`$getConcatenatedMatrixAt`, `$getConcatenatedAlphaAt`) are supplied by an `Env`.
 */
module DisplayTree {
  import opened Common
  import opened Geometry
  import opened Buffers
  import opened RenderNodes

  /** `$parentDisplayList.root`: the root of the cached surface an object is drawn into, and whether it is the stage. */
  datatype ListRoot = ListRoot(rootId: nat, rootIsStage: bool)

  /** A cached surface (`sys.DisplayList`): its dirty flag, the draw calls `drawToSurface` reports, and its single node. */
  datatype DisplayList = DisplayList(isDirty: bool, surfaceCalls: nat, renderNode: Option<RenderNode>)

  /** `$children`: a missing child array and an empty one are told apart by the renderer. */
  datatype Children = NoChildren | Children(items: seq<DisplayObject>)

  datatype DisplayObject = DisplayObject(
    id: nat,
    visible: bool,
    alpha: real,
    /** index into the blend-mode table; 0 is normal */
    blendMode: int,
    /** `$getFilters()` */
    filters: Option<seq<Filter>>,
    /** `$mask`: a snapshot of the object used as this one's mask */
    mask: Option<DisplayObject>,
    /** `$maskedObject` is set: this object is itself serving as a mask */
    isMask: bool,
    scrollRect: Option<Rect>,
    maskRect: Option<Rect>,
    parentDisplayList: Option<ListRoot>,
    /** `$displayList`: the object's own cached surface */
    displayList: Option<DisplayList>,
    children: Children,
    /** `$getRenderNode()` */
    renderNode: Option<RenderNode>,
    /** `$getConcatenatedMatrix()` */
    concatMatrix: Matrix,
    /** `$getConcatenatedAlpha()` */
    concatAlpha: real,
    /** `$getOriginalBounds()` */
    originalBounds: Rect,
    /** the frame-rate panel, drawn without counting its calls */
    isFPS: bool)

  /** `$getConcatenatedMatrixAt(ancestor)` and `$getConcatenatedAlphaAt(ancestor, alpha)` by object id. */
  datatype Env = Env(matrixAt: (nat, nat) -> Matrix, alphaAt: (nat, nat, real) -> real)

  function ChildCount(o: DisplayObject): nat {
    match o.children
    case NoChildren => 0
    case Children(items) => |items|
  }

  function ChildAt(o: DisplayObject, i: nat): (c: DisplayObject)
    requires i < ChildCount(o)
    ensures c < o
  {
    assert o.children.items[i] in o.children.items;
    o.children.items[i]
  }

  /** No object in the tree (children included, transitively) has a mask. */
  predicate MaskFree(o: DisplayObject)
    decreases o, 1, 0
  {
    o.mask.None? && MaskFreeFrom(o, 0)
  }

  predicate MaskFreeFrom(o: DisplayObject, i: nat)
    requires i <= ChildCount(o)
    decreases o, 0, ChildCount(o) - i
  {
    i < ChildCount(o) ==> MaskFree(ChildAt(o, i)) && MaskFreeFrom(o, i + 1)
  }

  lemma {:induction false} MaskFreeChild(o: DisplayObject, i: nat, k: nat)
    requires i <= k < ChildCount(o) && MaskFreeFrom(o, i)
    ensures MaskFree(ChildAt(o, k))
    decreases k - i
  {
    if i < k {
      MaskFreeChild(o, i + 1, k);
    }
  }

  /** Children the loop skips: invisible, fully transparent, or acting as a mask (line 155). */
  predicate Hidden(o: DisplayObject) {
    !o.visible || o.alpha <= 0.0 || o.isMask
  }

  predicate HasFilters(o: DisplayObject) {
    o.filters.Some? && |o.filters.value| > 0
  }

  /** A mask is honoured only when it sits in a display list or this is a render-texture pass (line 163). */
  predicate MaskActive(o: DisplayObject, root: Option<nat>) {
    o.mask.Some? && (o.mask.value.parentDisplayList.Some? || root.Some?)
  }

  predicate NeedsClip(o: DisplayObject, root: Option<nat>) {
    o.blendMode != 0 || MaskActive(o, root)
  }

  predicate HasScrollRect(o: DisplayObject) {
    o.scrollRect.Some? || o.maskRect.Some?
  }

  /** The compositing path a child of the traversal takes. */
  datatype Path = Skipped | ViaFilter | ViaClip | ViaScrollRect | Direct

  /**
   * The branch chain of lines 155-181. Exactly one path is chosen, with filters taking precedence over
   * blend/mask clipping, which takes precedence over scroll-rect clipping.
   */
  function Route(o: DisplayObject, root: Option<nat>): (p: Path)
    ensures p.Skipped? <==> Hidden(o)
    ensures p.ViaFilter? <==> !Hidden(o) && HasFilters(o)
    ensures p.ViaClip? <==> !Hidden(o) && !HasFilters(o) && NeedsClip(o, root)
    ensures p.ViaScrollRect? <==> !Hidden(o) && !HasFilters(o) && !NeedsClip(o, root) && HasScrollRect(o)
    ensures p.Direct? <==> !Hidden(o) && !HasFilters(o) && !NeedsClip(o, root) && !HasScrollRect(o)
  {
    if Hidden(o) then Skipped
    else if HasFilters(o) then ViaFilter
    else if NeedsClip(o, root) then ViaClip
    else if HasScrollRect(o) then ViaScrollRect
    else Direct
  }
}

=== FILE: geometry.dfy ===
/**
 * Rectangles, 2D affine matrices and integer regions.
 *
 * `Region` and `Matrix` are not part of this model's source text; they are given the ordinary
 * axis-aligned-box and affine-transform semantics stated here.
 */
module Geometry {

  /** An `egret.Rectangle`: origin and (possibly negative) extent. */
  datatype Rect = Rect(x: real, y: real, width: real, height: real)

  /** `Rectangle.isEmpty`: a rectangle with non-positive extent. */
  predicate RectIsEmpty(r: Rect) {
    r.width <= 0.0 || r.height <= 0.0
  }

  /** A 2D affine transform mapping (x, y) to (a*x + c*y + tx, b*x + d*y + ty). */
  datatype Matrix = Matrix(a: real, b: real, c: real, d: real, tx: real, ty: real)

  const Identity: Matrix := Matrix(1.0, 0.0, 0.0, 1.0, 0.0, 0.0)

  /** `Matrix.create().setTo(1, 0, 0, 1, x, y)`. */
  function Translation(x: real, y: real): Matrix {
    Matrix(1.0, 0.0, 0.0, 1.0, x, y)
  }

  function ApplyX(m: Matrix, x: real, y: real): real {
    m.a * x + m.c * y + m.tx
  }

  function ApplyY(m: Matrix, x: real, y: real): real {
    m.b * x + m.d * y + m.ty
  }

  /**
   * `self.$preMultiplyInto(first, target)`: the transform that applies `first` and then `self`.
   */
  function PreMultiply(self: Matrix, first: Matrix): (r: Matrix)
    ensures forall x: real, y: real {:trigger ApplyX(r, x, y)} ::
              ApplyX(r, x, y) == ApplyX(self, ApplyX(first, x, y), ApplyY(first, x, y))
    ensures forall x: real, y: real {:trigger ApplyY(r, x, y)} ::
              ApplyY(r, x, y) == ApplyY(self, ApplyX(first, x, y), ApplyY(first, x, y))
  {
    Matrix(
      first.a * self.a + first.b * self.c,
      first.a * self.b + first.b * self.d,
      first.c * self.a + first.d * self.c,
      first.c * self.b + first.d * self.d,
      first.tx * self.a + first.ty * self.c + self.tx,
      first.tx * self.b + first.ty * self.d + self.ty)
  }

  /** A pixel-aligned axis-aligned box; it covers the integer points minX <= x < maxX, minY <= y < maxY. */
  datatype Region = Region(minX: int, minY: int, maxX: int, maxY: int) {
    function Width(): int { maxX - minX }
    function Height(): int { maxY - minY }
  }

  /** What `Region.create()` hands out. */
  const EmptyRegion: Region := Region(0, 0, 0, 0)

  predicate Contains(r: Region, x: int, y: int) {
    r.minX <= x < r.maxX && r.minY <= y < r.maxY
  }

  /** `Region.isEmpty`: non-positive extent. */
  predicate IsEmpty(r: Region) {
    r.Width() <= 0 || r.Height() <= 0
  }

  function Max(a: int, b: int): int { if a >= b then a else b }
  function Min(a: int, b: int): int { if a <= b then a else b }

  /** `Region.intersects`: the two boxes share a piece of positive area. */
  predicate Intersects(p: Region, q: Region) {
    Max(p.minX, q.minX) < Min(p.maxX, q.maxX) && Max(p.minY, q.minY) < Min(p.maxY, q.maxY)
  }

  /** `Region.intersect`: the common part of the two boxes, or the empty region when there is none. */
  function Intersect(p: Region, q: Region): (r: Region)
    ensures forall x, y {:trigger Contains(r, x, y)} :: Contains(r, x, y) <==> Contains(p, x, y) && Contains(q, x, y)
    ensures IsEmpty(r) <==> !Intersects(p, q)
  {
    if Intersects(p, q) then
      Region(Max(p.minX, q.minX), Max(p.minY, q.minY), Min(p.maxX, q.maxX), Min(p.maxY, q.maxY))
    else
      EmptyRegion
  }

  /** Two regions intersect exactly when some integer point lies in both. */
  lemma IntersectsIffCommonPoint(p: Region, q: Region)
    ensures Intersects(p, q) <==> exists x, y :: Contains(p, x, y) && Contains(q, x, y)
  {
    if Intersects(p, q) {
      var x, y := Max(p.minX, q.minX), Max(p.minY, q.minY);
      assert Contains(p, x, y) && Contains(q, x, y);
    }
  }

  function Min4(a: real, b: real, c: real, d: real): (r: real)
    ensures r <= a && r <= b && r <= c && r <= d
    ensures r == a || r == b || r == c || r == d
  {
    var ab := if a <= b then a else b;
    var cd := if c <= d then c else d;
    if ab <= cd then ab else cd
  }

  function Max4(a: real, b: real, c: real, d: real): (r: real)
    ensures r >= a && r >= b && r >= c && r >= d
    ensures r == a || r == b || r == c || r == d
  {
    var ab := if a >= b then a else b;
    var cd := if c >= d then c else d;
    if ab >= cd then ab else cd
  }

  function Ceil(x: real): (r: int)
    ensures x <= r as real < x + 1.0
  {
    -((-x).Floor)
  }

  /**
   * `Region.updateRegion(bounds, matrix)`: the smallest pixel-aligned box holding the four transformed
   * corners of `bounds`.
   */
  function UpdateRegion(bounds: Rect, m: Matrix): (r: Region)
    ensures forall x: real, y: real {:trigger ApplyX(m, x, y)} ::
      (x == bounds.x || x == bounds.x + bounds.width) && (y == bounds.y || y == bounds.y + bounds.height) ==>
        r.minX as real <= ApplyX(m, x, y) <= r.maxX as real &&
        r.minY as real <= ApplyY(m, x, y) <= r.maxY as real
    ensures r.minX <= r.maxX && r.minY <= r.maxY
  {
    var x0, y0 := bounds.x, bounds.y;
    var x1, y1 := bounds.x + bounds.width, bounds.y + bounds.height;
    var minX := Min4(ApplyX(m, x0, y0), ApplyX(m, x1, y0), ApplyX(m, x0, y1), ApplyX(m, x1, y1));
    var maxX := Max4(ApplyX(m, x0, y0), ApplyX(m, x1, y0), ApplyX(m, x0, y1), ApplyX(m, x1, y1));
    var minY := Min4(ApplyY(m, x0, y0), ApplyY(m, x1, y0), ApplyY(m, x0, y1), ApplyY(m, x1, y1));
    var maxY := Max4(ApplyY(m, x0, y0), ApplyY(m, x1, y0), ApplyY(m, x0, y1), ApplyY(m, x1, y1));
    Region(minX.Floor, minY.Floor, Ceil(maxX), Ceil(maxY))
  }

  /** Whether any region in `dirty` intersects `r` (the source's early-`break` search loop). */
  predicate HitsAny(r: Region, dirty: seq<Region>) {
    exists j :: 0 <= j < |dirty| && Intersects(r, dirty[j])
  }

  /**
   * The search loop of the source, written as it runs: it scans `dirty` from index `j` and stops at
   * the first hit.
   */
  function FirstHitFrom(r: Region, dirty: seq<Region>, j: nat): (found: bool)
    requires j <= |dirty|
    ensures found <==> exists k :: j <= k < |dirty| && Intersects(r, dirty[k])
    decreases |dirty| - j
  {
    if j == |dirty| then false
    else if Intersects(r, dirty[j]) then true
    else FirstHitFrom(r, dirty, j + 1)
  }
}

=== FILE: render_nodes.dfy ===
/**
 * Render nodes and the per-node drawing dispatch (`renderNode`, `renderBitmap`, `renderMesh`,
 * `renderText`, `renderGraphics`, `renderGroup` in WebGLRenderer.ts).
 *
 * The GPU and native work (`drawImage`, `drawMesh`, `drawGraphics` and the Skia canvas calls) is
 * recorded only as a count of primitive submissions; what matters here is which buffer and context
 * state each node leaves behind.
 */
module RenderNodes {
  import opened Common
  import opened Geometry
  import opened Buffers

  /** A `sys.RenderNode`: its buffer-space bounds, precomputed transform and alpha, redraw flag and payload. */
  datatype RenderNode = RenderNode(
    region: Region,
    matrix: Matrix,
    alpha: real,
    needRedraw: bool,
    kind: NodeKind)

  datatype NodeKind =
    | BitmapNode(
        hasImage: bool,
        /** flat list of source/destination rectangle octets */
        drawData: seq<real>,
        localMatrix: Option<Matrix>,
        /** 0 when the node sets no blend mode */
        blendMode: int,
        nodeAlpha: Num,
        filter: Option<Filter>)
    | TextNode(textWidth: real, textHeight: real)
    | GraphicsNode(shapeWidth: real, shapeHeight: real)
    | GroupNode(nodes: seq<RenderNode>)
    | SetAlphaNode(value: real)
    | MeshNode(meshData: seq<real>, meshMatrix: Option<Matrix>)

  /** What drawing one node leaves behind, and how many primitives it submitted to the context. */
  datatype Drawn = Drawn(buf: Buffer, ctx: Context, primitives: nat)

  /** Iterations of `while (pos < length) { ...data[pos++] x 8... }`: one per started octet. */
  function Octets(length: nat): (n: nat)
    ensures length == 0 ==> n == 0
    ensures length > 0 ==> 8 * (n - 1) < length <= 8 * n
  {
    (length + 7) / 8
  }

  predicate IsPowerOfTwo(n: int)
    decreases n
  {
    n == 1 || (n > 1 && n % 2 == 0 && IsPowerOfTwo(n / 2))
  }

  /**
   * The scratch-canvas side length loop of renderText / renderGraphics, continued from `side`:
   * doubles `side` while it is below `size`.
   */
  function DoubleUntil(side: int, size: real): (r: int)
    requires side >= 2 && IsPowerOfTwo(side)
    ensures IsPowerOfTwo(r) && r >= side
    ensures size <= r as real
    ensures r == side || (r / 2) as real < size
    decreases if size.Floor >= side then size.Floor - side + 1 else 0
  {
    if (side as real) < size then DoubleUntil(2 * side, size) else side
  }

  /**
   * Scratch canvas side for a text or graphics node of extent `size` (lines 694-701, 806-813):
   * starts at 2 and doubles while it is smaller than `size`.
   */
  function CanvasSide(size: real): (r: int)
    ensures IsPowerOfTwo(r) && r >= 2 && size <= r as real
    ensures r == 2 || (r / 2) as real < size
  {
    DoubleUntil(2, size)
  }

  /** Between two distinct powers of two there is at least a factor of two. */
  lemma {:induction false} PowerOfTwoGap(p: int, q: int)
    requires IsPowerOfTwo(p) && IsPowerOfTwo(q) && p < q
    ensures 2 * p <= q
    decreases q
  {
    if p > 1 {
      PowerOfTwoGap(p / 2, q / 2);
    }
  }

  /** No power of two from 2 upward that is at least `size` is smaller than the canvas side. */
  lemma CanvasSideIsLeast(size: real, p: int)
    requires IsPowerOfTwo(p) && p >= 2 && size <= p as real
    ensures CanvasSide(size) <= p
  {
    var r := CanvasSide(size);
    if p < r {
      PowerOfTwoGap(p, r);
    }
  }

  /**
   * `renderBitmap` (lines 604-651): nothing without an image; otherwise draws one image per octet with
   * the node's local transform, blend mode, alpha factor and filter in force, then undoes them. The
   * composite operation is put back to the default, not to what it was before.
   */
  function RenderBitmap(n: NodeKind, buf: Buffer, ctx: Context): (r: Drawn)
    requires n.BitmapNode?
    ensures r.buf == buf
    ensures !n.hasImage ==> r == Drawn(buf, ctx, 0)
    ensures n.hasImage ==> r.primitives == Octets(|n.drawData|)
    ensures n.hasImage && n.filter.Some? ==> r.ctx.filter.None?
    ensures !n.hasImage || n.filter.None? ==> r.ctx.filter == ctx.filter
    ensures n.hasImage && n.blendMode != 0 ==> r.ctx.op == DefaultOp
    ensures !n.hasImage || n.blendMode == 0 ==> r.ctx.op == ctx.op
  {
    if !n.hasImage then Drawn(buf, ctx, 0)
    else
      var saved := buf.transform;
      var b1 := if n.localMatrix.Some? then SetTransform(buf, PreMultiply(buf.transform, n.localMatrix.value)) else buf;
      var c1 := if n.blendMode != 0 then ctx.(op := BlendTable(n.blendMode)) else ctx;
      var originAlpha := b1.alpha;
      var b2 := if n.nodeAlpha.Finite? then SetAlpha(b1, b1.alpha * n.nodeAlpha.v) else b1;
      var c2 := if n.filter.Some? then c1.(filter := n.filter) else c1;
      var images := Octets(|n.drawData|);
      var c3 := if n.filter.Some? then c2.(filter := None) else c2;
      var c4 := if n.blendMode != 0 then c3.(op := DefaultOp) else c3;
      var b3 := if n.nodeAlpha.Finite? then SetAlpha(b2, originAlpha) else b2;
      var b4 := if n.localMatrix.Some? then SetTransform(b3, saved) else b3;
      Drawn(b4, c4, images)
  }

  /** `renderMesh` (lines 656-674): one mesh draw per octet under the node's local transform, which is then undone. */
  function RenderMesh(n: NodeKind, buf: Buffer, ctx: Context): (r: Drawn)
    requires n.MeshNode?
    ensures r.buf == buf && r.ctx == ctx
    ensures r.primitives == Octets(|n.meshData|)
  {
    var saved := buf.transform;
    var b1 := if n.meshMatrix.Some? then SetTransform(buf, PreMultiply(buf.transform, n.meshMatrix.value)) else buf;
    var b2 := if n.meshMatrix.Some? then SetTransform(b1, saved) else b1;
    Drawn(b2, ctx, Octets(|n.meshData|))
  }

  /** The buffer fields node drawing may change: only its global alpha. */
  predicate OnlyAlphaChanged(before: Buffer, after: Buffer) {
    after == before.(alpha := after.alpha)
  }

  /** Context facts every node dispatch keeps: no `$filter` left behind, default composite op kept. */
  predicate ContextKept(before: Context, after: Context) {
    && (before.filter.None? ==> after.filter.None?)
    && (before.op == DefaultOp ==> after.op == DefaultOp)
  }

  /**
   * `renderNode` (lines 578-599): dispatch on the node type. The dispatch itself draws nothing;
   * a SetAlpha node only sets the buffer's global alpha to its value.
   */
  function RenderNodeOn(node: RenderNode, buf: Buffer, ctx: Context): (r: Drawn)
    ensures OnlyAlphaChanged(buf, r.buf)
    ensures ContextKept(ctx, r.ctx)
    ensures node.kind.SetAlphaNode? ==> r == Drawn(buf.(alpha := node.kind.value), ctx, 0)
    decreases node, 1, 0
  {
    match node.kind
    case BitmapNode(_, _, _, _, _, _) => RenderBitmap(node.kind, buf, ctx)
    // renderText / renderGraphics rasterise into a CanvasSide(width) x CanvasSide(height) scratch
    // canvas and composite it with one drawGraphics call
    case TextNode(_, _) => Drawn(buf, ctx, 1)
    case GraphicsNode(_, _) => Drawn(buf, ctx, 1)
    case GroupNode(_) => RenderGroupFrom(node, 0, buf, ctx)
    case SetAlphaNode(v) => Drawn(SetAlpha(buf, v), ctx, 0)
    case MeshNode(_, _) => RenderMesh(node.kind, buf, ctx)
  }

  /** `renderGroup` (lines 917-924), from index `i` on: the nodes are dispatched one after another, in order. */
  function RenderGroupFrom(group: RenderNode, i: nat, buf: Buffer, ctx: Context): (r: Drawn)
    requires group.kind.GroupNode? && i <= |group.kind.nodes|
    ensures OnlyAlphaChanged(buf, r.buf)
    ensures ContextKept(ctx, r.ctx)
    decreases group, 0, |group.kind.nodes| - i
  {
    var nodes := group.kind.nodes;
    if i == |nodes| then Drawn(buf, ctx, 0)
    else
      assert nodes[i] in nodes;
      var first := RenderNodeOn(nodes[i], buf, ctx);
      var rest := RenderGroupFrom(group, i + 1, first.buf, first.ctx);
      Drawn(rest.buf, rest.ctx, first.primitives + rest.primitives)
  }

  /** Whether a node (or, for a group, any node inside it) is a SetAlpha node. */
  predicate SetsAlpha(node: RenderNode)
    decreases node, 1
  {
    match node.kind
    case SetAlphaNode(_) => true
    case GroupNode(nodes) => SetsAlphaFrom(node, 0)
    case _ => false
  }

  predicate SetsAlphaFrom(group: RenderNode, i: nat)
    requires group.kind.GroupNode? && i <= |group.kind.nodes|
    decreases group, 0, |group.kind.nodes| - i
  {
    var nodes := group.kind.nodes;
    i < |nodes| && (assert nodes[i] in nodes; SetsAlpha(nodes[i]) || SetsAlphaFrom(group, i + 1))
  }

  /** A node with no SetAlpha anywhere inside it leaves the buffer exactly as it found it. */
  lemma {:induction false} NoSetAlphaKeepsBuffer(node: RenderNode, buf: Buffer, ctx: Context)
    requires !SetsAlpha(node)
    ensures RenderNodeOn(node, buf, ctx).buf == buf
    decreases node, 1, 0
  {
    if node.kind.GroupNode? {
      NoSetAlphaKeepsBufferFrom(node, 0, buf, ctx);
    }
  }

  lemma {:induction false} NoSetAlphaKeepsBufferFrom(group: RenderNode, i: nat, buf: Buffer, ctx: Context)
    requires group.kind.GroupNode? && i <= |group.kind.nodes|
    requires !SetsAlphaFrom(group, i)
    ensures RenderGroupFrom(group, i, buf, ctx).buf == buf
    decreases group, 0, |group.kind.nodes| - i
  {
    var nodes := group.kind.nodes;
    if i < |nodes| {
      assert nodes[i] in nodes;
      NoSetAlphaKeepsBuffer(nodes[i], buf, ctx);
      var first := RenderNodeOn(nodes[i], buf, ctx);
      NoSetAlphaKeepsBufferFrom(group, i + 1, first.buf, first.ctx);
    }
  }

  /**
   * Group nodes run in order: when the last node of a group is `SetAlpha(v)`, the buffer's alpha after
   * the group is `v`, whatever came before it.
   */
  lemma {:induction false} GroupLastSetAlphaWins(group: RenderNode, i: nat, buf: Buffer, ctx: Context)
    requires group.kind.GroupNode? && i < |group.kind.nodes|
    requires group.kind.nodes[|group.kind.nodes| - 1].kind.SetAlphaNode?
    ensures RenderGroupFrom(group, i, buf, ctx).buf.alpha == group.kind.nodes[|group.kind.nodes| - 1].kind.value
    decreases |group.kind.nodes| - i
  {
    var nodes := group.kind.nodes;
    var first := RenderNodeOn(nodes[i], buf, ctx);
    if i + 1 < |nodes| {
      GroupLastSetAlphaWins(group, i + 1, first.buf, first.ctx);
    } else {
      assert RenderGroupFrom(group, i + 1, first.buf, first.ctx) == Drawn(first.buf, first.ctx, 0);
    }
  }
}

=== FILE: renderer.dfy ===
/**
 * The frame traversal and compositing engine of `WebGLRenderer` (WebGLRenderer.ts).
 *
 * Every operation is a pure function of the display tree, the current buffer and the shared state,
 * and returns the draw calls it counted together with the buffer and shared state it leaves behind.
 * Off-screen buffers are taken from and returned to the pool in `Shared`; the context's composite
 * operation and `$filter` live there too. Each function's contract includes `Keeps`: the mask stack
 * and scissor of the buffer it draws on are left as they were found, the pool stays clean and does
 * not shrink, and the context is not left with a filter or a non-default composite op.
 */
module Renderer {
  import opened Common
  import opened Geometry
  import opened Buffers
  import opened RenderNodes
  import opened DisplayTree

  /**
   * Process-wide state of a pass: the idle-buffer pool, the shared context, and how many pooled
   * matrices have been dropped without `Matrix.release`.
   */
  datatype Shared = Shared(pool: seq<Buffer>, ctx: Context, leakedMatrices: nat)

  /** Inputs fixed for a whole `render` call: the dirty-region list (absent in a render-texture pass) and the ancestor queries. */
  datatype Pass = Pass(dirty: Option<seq<Region>>, env: Env)

  /** Draw calls counted, and the state left behind. */
  datatype Out = Out(calls: nat, buf: Buffer, sh: Shared)

  /** What every drawing function preserves (see the module comment). */
  predicate Keeps(buf: Buffer, sh: Shared, out: Out, maskFree: bool) {
    && out.buf.clipDepth == buf.clipDepth
    && out.buf.hasScissor == buf.hasScissor
    && out.buf.width == buf.width && out.buf.height == buf.height
    && (PoolClean(sh.pool) ==> PoolClean(out.sh.pool))
    && |out.sh.pool| >= |sh.pool|
    && ContextKept(sh.ctx, out.sh.ctx)
    && out.sh.leakedMatrices >= sh.leakedMatrices
    && (maskFree ==> out.sh.leakedMatrices == sh.leakedMatrices)
  }

  // ----- the object's own render node (lines 93-146) -----

  datatype RedrawOutcome = RedrawOutcome(drawn: bool, needRedrawAfter: bool)

  /**
   * The redraw test of lines 106-145 applied to one node's `needRedraw` flag: it is cleared when the
   * clip region misses the node, set when the node hits a dirty region, forced when there is no dirty
   * list, and cleared again once the node is drawn.
   */
  function RedrawDecision(node: RenderNode, dirty: Option<seq<Region>>, clip: Option<Region>): (r: RedrawOutcome)
    ensures !r.needRedrawAfter
    ensures r.drawn <==>
      dirty.None? ||
      ((clip.None? || Intersects(clip.value, node.region)) && (node.needRedraw || HitsAny(node.region, dirty.value)))
  {
    var flag :=
      if dirty.Some? then
        if clip.Some? && !Intersects(clip.value, node.region) then false
        else if !node.needRedraw then FirstHitFrom(node.region, dirty.value, 0)
        else node.needRedraw
      else true;
    RedrawOutcome(flag, false)
  }

  /** Where the node comes from: a cached surface outside a render-texture pass supplies its own node, redrawn first when dirty. */
  datatype NodeSource = NodeSource(node: Option<RenderNode>, surfaceCalls: nat)

  function SourceOf(obj: DisplayObject, displayList: Option<DisplayList>, root: Option<nat>): (s: NodeSource)
    ensures displayList.Some? && root.None? ==> s.node == displayList.value.renderNode
    ensures !(displayList.Some? && root.None?) ==> s == NodeSource(obj.renderNode, 0)
    ensures displayList.Some? && root.None? ==>
      s.surfaceCalls == (if displayList.value.isDirty then displayList.value.surfaceCalls else 0)
    ensures s.surfaceCalls > 0 ==> displayList.Some? && root.None? && displayList.value.isDirty
  {
    if displayList.Some? && root.None? then
      var dl := displayList.value;
      NodeSource(dl.renderNode, if dl.isDirty then dl.surfaceCalls else 0)
    else
      NodeSource(obj.renderNode, 0)
  }

  /** Whether the object's own node is drawn in this visit. */
  predicate OwnNodeDrawn(obj: DisplayObject, pass: Pass, displayList: Option<DisplayList>, clip: Option<Region>, root: Option<nat>) {
    var s := SourceOf(obj, displayList, root);
    s.node.Some? && RedrawDecision(s.node.value, pass.dirty, clip).drawn
  }

  /**
   * Lines 93-146: draws the object's own node when the redraw test passes. Drawing it counts exactly one
   * call, on top of whatever `drawToSurface` reported. Only the buffer's transform and alpha change.
   */
  function DrawOwnNode(obj: DisplayObject, buf: Buffer, sh: Shared, pass: Pass, matrix: Matrix,
                       displayList: Option<DisplayList>, clip: Option<Region>, root: Option<nat>): (out: Out)
    ensures out.calls == SourceOf(obj, displayList, root).surfaceCalls + (if OwnNodeDrawn(obj, pass, displayList, clip, root) then 1 else 0)
    ensures out.sh.pool == sh.pool && out.sh.leakedMatrices == sh.leakedMatrices
    ensures ContextKept(sh.ctx, out.sh.ctx)
    ensures out.buf == buf.(alpha := out.buf.alpha, transform := out.buf.transform)
    ensures !OwnNodeDrawn(obj, pass, displayList, clip, root) ==> out.buf == buf && out.sh == sh
  {
    var src := SourceOf(obj, displayList, root);
    if src.node.None? || !RedrawDecision(src.node.value, pass.dirty, clip).drawn then
      Out(src.surfaceCalls, buf, sh)
    else
      var node := src.node.value;
      var alpha := if root.Some? then pass.env.alphaAt(obj.id, root.value, obj.concatAlpha) else node.alpha;
      var m :=
        if root.Some? then PreMultiply(matrix, pass.env.matrixAt(obj.id, root.value))
        else node.matrix.(tx := node.matrix.tx + matrix.tx, ty := node.matrix.ty + matrix.ty);
      var d := RenderNodeOn(node, SetAlpha(SetTransform(buf, m), alpha), sh.ctx);
      Out(src.surfaceCalls + 1, d.buf, sh.(ctx := d.ctx))
  }

  // ----- helpers of drawWithFilter (lines 191-267) -----

  /** A single "colorTransform" filter on an object without a child array is drawn in place (line 203). */
  predicate FilterInPlace(obj: DisplayObject)
    requires obj.filters.Some?
  {
    |obj.filters.value| == 1 && obj.filters.value[0].kind == "colorTransform" && obj.children.NoChildren?
  }

  /** The object's buffer-space bounds, the size of its off-screen buffer (lines 221-228). */
  function FilterRegion(obj: DisplayObject): Region {
    UpdateRegion(obj.originalBounds, obj.concatMatrix)
  }

  function Offset(area: Region): Matrix {
    Translation(-(area.minX as real), -(area.minY as real))
  }

  // ----- helpers of drawWithClip (lines 272-468) -----

  /** `$scrollRect`, or else `$maskRect`. */
  function ClipRect(obj: DisplayObject): Option<Rect> {
    if obj.scrollRect.Some? then obj.scrollRect else obj.maskRect
  }

  /** The mask collapses to a line: a = b = 0 or c = d = 0 (line 291). */
  predicate Degenerate(m: Matrix) {
    (m.a == 0.0 && m.b == 0.0) || (m.c == 0.0 && m.d == 0.0)
  }

  predicate MaskDegenerate(obj: DisplayObject) {
    obj.mask.Some? && obj.mask.value.renderNode.Some? && Degenerate(obj.mask.value.renderNode.value.matrix)
  }

  /** The object's matrix, taken relative to its cached surface's root when that root is not the stage (lines 302-310). */
  function ClipMatrix(obj: DisplayObject, env: Env): Matrix {
    if obj.parentDisplayList.Some? && !obj.parentDisplayList.value.rootIsStage then
      env.matrixAt(obj.id, obj.parentDisplayList.value.rootId)
    else
      obj.concatMatrix
  }

  /**
   * The mask's region (lines 312-322). The source declares an `invertedMatrix` to move it into the
   * cached surface's space but never assigns it, so the mask's own concatenated matrix is used as is.
   */
  function MaskRegion(mask: DisplayObject): Region {
    UpdateRegion(mask.originalBounds, mask.concatMatrix)
  }

  /** The clip of lines 323-334: the scroll rect's region, the mask's region, or their intersection when both exist. */
  function ClipRegion(obj: DisplayObject, env: Env): (r: Option<Region>)
    ensures r.None? <==> ClipRect(obj).None? && obj.mask.None?
    ensures ClipRect(obj).Some? && obj.mask.Some? ==>
      r == Some(Intersect(UpdateRegion(ClipRect(obj).value, ClipMatrix(obj, env)), MaskRegion(obj.mask.value)))
    ensures ClipRect(obj).None? && obj.mask.Some? ==> r == Some(MaskRegion(obj.mask.value))
    ensures ClipRect(obj).Some? && obj.mask.None? ==> r == Some(UpdateRegion(ClipRect(obj).value, ClipMatrix(obj, env)))
  {
    var maskRegion := if obj.mask.Some? then Some(MaskRegion(obj.mask.value)) else None;
    var rectRegion := if ClipRect(obj).Some? then Some(UpdateRegion(ClipRect(obj).value, ClipMatrix(obj, env))) else None;
    if rectRegion.Some? && maskRegion.Some? then Some(Intersect(rectRegion.value, maskRegion.value))
    else if rectRegion.None? && maskRegion.Some? then maskRegion
    else rectRegion
  }

  /** The region the object is clipped and composited in: the clip, or its own bounds when it has none (lines 342-346). */
  function ClipArea(obj: DisplayObject, env: Env): Region {
    var r := ClipRegion(obj, env);
    if r.Some? then r.value else UpdateRegion(obj.originalBounds, ClipMatrix(obj, env))
  }

  /** Line 336: a clip that is empty or misses the active clip region. */
  predicate ClipMisses(obj: DisplayObject, clip: Option<Region>, env: Env) {
    var r := ClipRegion(obj, env);
    r.Some? && (IsEmpty(r.value) || (clip.Some? && !Intersects(clip.value, r.value)))
  }

  /** Lines 347-364: a dirty list exists and none of its regions touches the area. */
  predicate MissesDirty(area: Region, pass: Pass) {
    pass.dirty.Some? && !FirstHitFrom(area, pass.dirty.value, 0)
  }

  /** The three early exits of drawWithClip, each returning zero draw calls before any child is visited. */
  predicate ClipSkipped(obj: DisplayObject, clip: Option<Region>, pass: Pass) {
    MaskDegenerate(obj) || ClipMisses(obj, clip, pass.env) || MissesDirty(ClipArea(obj, pass.env), pass)
  }

  /** Line 367: no mask and no children, so the object is drawn straight into the destination. */
  predicate ClipInPlace(obj: DisplayObject) {
    obj.mask.None? && ChildCount(obj) == 0
  }

  /** The scroll rect's transform placed at the area's origin (lines 369-370, 444-445). */
  function AreaTransform(obj: DisplayObject, env: Env, area: Region): Matrix {
    var m := ClipMatrix(obj, env);
    m.(tx := m.tx - area.minX as real, ty := m.ty - area.minY as real)
  }

  /** The result of compositing an off-screen buffer back. */
  datatype Composited = Composited(calls: nat, buf: Buffer, ctx: Context, offscreen: Buffer)

  /**
   * Lines 437-460: when the running total is positive, one more call composites the content buffer onto
   * the destination with the object's blend mode, inside a mask push for the scroll rect. The push and
   * pop go to the context's current buffer, which at that point is the destination.
   */
  function CompositeBack(obj: DisplayObject, buf: Buffer, ctx: Context, offscreen: Buffer, total: nat,
                         area: Region, env: Env, matrix: Matrix): (r: Composited)
    ensures total > 0 ==> r.calls == total + 1
    ensures total == 0 ==> r == Composited(0, buf, ctx, offscreen)
    ensures r.buf.clipDepth == buf.clipDepth && r.buf.hasScissor == buf.hasScissor
    ensures r.buf.width == buf.width && r.buf.height == buf.height
    ensures r.offscreen == offscreen.(transform := r.offscreen.transform)
    ensures r.ctx.filter == ctx.filter
    ensures ctx.op == DefaultOp ==> r.ctx.op == DefaultOp
  {
    if total == 0 then Composited(0, buf, ctx, offscreen)
    else
      var hasBlend := obj.blendMode != 0;
      var c1 := if hasBlend then ctx.(op := CompositeFor(obj.blendMode)) else ctx;
      var clipped := ClipRect(obj).Some?;
      var off1 := if clipped then SetTransform(offscreen, AreaTransform(obj, env, area)) else offscreen;
      var b1 := if clipped then PushMask(buf) else buf;
      var b2 := SetTransform(SetAlpha(b1, 1.0),
                  Matrix(1.0, 0.0, 0.0, -1.0, area.minX as real + matrix.tx, area.minY as real + matrix.ty + off1.height as real));
      var b3 := if clipped then PopMask(b2) else b2;
      var c2 := if hasBlend then c1.(op := DefaultOp) else c1;
      Composited(total + 1, b3, c2, off1)
  }

  // ----- helpers of drawWithScrollRect (lines 473-551) -----

  /** The scroll rect's matrix: relative to the render-texture root, else to a non-stage cached-surface root (lines 480-490). */
  function ScrollMatrix(obj: DisplayObject, root: Option<nat>, env: Env): Matrix {
    if root.Some? then env.matrixAt(obj.id, root.value)
    else if obj.parentDisplayList.Some? && !obj.parentDisplayList.value.rootIsStage then
      env.matrixAt(obj.id, obj.parentDisplayList.value.rootId)
    else obj.concatMatrix
  }

  /** Lines 491-494: a fresh (empty) region, set from the rect only when the rect is not empty. */
  function ScrollRegion(obj: DisplayObject, root: Option<nat>, env: Env): (r: Region)
    requires HasScrollRect(obj)
    ensures RectIsEmpty(ClipRect(obj).value) ==> IsEmpty(r)
  {
    var rect := ClipRect(obj).value;
    if !RectIsEmpty(rect) then UpdateRegion(rect, ScrollMatrix(obj, root, env)) else EmptyRegion
  }

  /** The early exits of drawWithScrollRect: a zero-sized rect, an empty region, a missed clip, no dirty hit. */
  predicate ScrollSkipped(obj: DisplayObject, clip: Option<Region>, pass: Pass, root: Option<nat>)
    requires HasScrollRect(obj)
  {
    var rect := ClipRect(obj).value;
    var region := ScrollRegion(obj, root, pass.env);
    rect.width == 0.0 || rect.height == 0.0 || IsEmpty(region)
    || (clip.Some? && !Intersects(clip.value, region))
    || MissesDirty(region, pass)
  }

  /** Line 524: an axis-aligned transform on a buffer without a scissor gets a hardware scissor; anything else a mask. */
  predicate UseScissor(buf: Buffer, m: Matrix) {
    !buf.hasScissor && m.b == 0.0 && m.c == 0.0
  }

  /** The transform drawWithScrollRect sets before and after drawing (lines 520, 540). */
  function ScrollPlacement(m: Matrix, matrix: Matrix): Matrix {
    m.(tx := m.tx + matrix.tx, ty := m.ty + matrix.ty)
  }

  /**
   * Lines 520-536: the destination as the object is drawn into it. It is placed at the scroll rect and
   * clipped by a hardware scissor when `UseScissor` allows one, otherwise by one more mask level.
   */
  function ScrollClipped(buf: Buffer, m: Matrix, matrix: Matrix): (b: Buffer)
    ensures b.transform == ScrollPlacement(m, matrix)
    ensures b.width == buf.width && b.height == buf.height && b.alpha == buf.alpha
    ensures UseScissor(buf, m) <==> b.hasScissor && !buf.hasScissor
    ensures UseScissor(buf, m) ==> b.clipDepth == buf.clipDepth
    ensures !UseScissor(buf, m) ==> b.clipDepth == buf.clipDepth + 1 && b.hasScissor == buf.hasScissor
  {
    var placed := SetTransform(buf, ScrollPlacement(m, matrix));
    if UseScissor(placed, m) then placed.(hasScissor := true) else PushMask(placed)
  }

  // ----- the mutually recursive traversal -----

  /**
   * `drawDisplayObject` (lines 91-186): the object's own node, then, unless a cached surface stands in
   * for the subtree, its children in index order.
   */
  function DrawDisplayObject(obj: DisplayObject, buf: Buffer, sh: Shared, pass: Pass, matrix: Matrix,
                             displayList: Option<DisplayList>, clip: Option<Region>, root: Option<nat>): (out: Out)
    ensures Keeps(buf, sh, out, MaskFree(obj))
    ensures ChildCount(obj) == 0 || (displayList.Some? && root.None?) ==>
      out.sh.pool == sh.pool && out.sh.leakedMatrices == sh.leakedMatrices
    ensures ChildCount(obj) == 0 || (displayList.Some? && root.None?) ==>
      out.calls == SourceOf(obj, displayList, root).surfaceCalls + (if OwnNodeDrawn(obj, pass, displayList, clip, root) then 1 else 0)
    decreases obj, 1, 0
  {
    var own := DrawOwnNode(obj, buf, sh, pass, matrix, displayList, clip, root);
    if displayList.Some? && root.None? then own
    else
      var rest := DrawChildren(obj, 0, own.buf, own.sh, pass, matrix, clip, root);
      Out(own.calls + rest.calls, rest.buf, rest.sh)
  }

  /** The child loop of lines 150-183, from child `i` on. */
  function DrawChildren(obj: DisplayObject, i: nat, buf: Buffer, sh: Shared, pass: Pass, matrix: Matrix,
                        clip: Option<Region>, root: Option<nat>): (out: Out)
    requires i <= ChildCount(obj)
    ensures Keeps(buf, sh, out, MaskFreeFrom(obj, i))
    ensures i == ChildCount(obj) ==> out == Out(0, buf, sh)
    decreases obj, 0, ChildCount(obj) - i
  {
    if i == ChildCount(obj) then Out(0, buf, sh)
    else
      var first := DrawChild(ChildAt(obj, i), buf, sh, pass, matrix, clip, root);
      var rest := DrawChildren(obj, i + 1, first.buf, first.sh, pass, matrix, clip, root);
      Out(first.calls + rest.calls, rest.buf, rest.sh)
  }

  /**
   * One child of the loop (lines 154-181): skipped children count nothing and change nothing; the others
   * go down the one path `Route` picks. The frame-rate panel is drawn but its calls are not counted.
   */
  function DrawChild(child: DisplayObject, buf: Buffer, sh: Shared, pass: Pass, matrix: Matrix,
                     clip: Option<Region>, root: Option<nat>): (out: Out)
    ensures Keeps(buf, sh, out, MaskFree(child))
    ensures Hidden(child) ==> out == Out(0, buf, sh)
    ensures Route(child, root).Direct? && child.isFPS ==> out.calls == 0
    decreases child, 4, 0
  {
    match Route(child, root)
    case Skipped => Out(0, buf, sh)
    case ViaFilter => DrawWithFilter(child, buf, sh, pass, matrix, clip, root)
    case ViaClip => DrawWithClip(child, buf, sh, pass, matrix, clip, root)
    case ViaScrollRect => DrawWithScrollRect(child, buf, sh, pass, matrix, clip, root)
    case Direct =>
      var inner := DrawDisplayObject(child, buf, sh, pass, matrix, child.displayList, clip, root);
      if child.isFPS then Out(0, inner.buf, inner.sh) else inner
  }

  /**
   * `drawWithFilter` (lines 191-267). A lone colorTransform filter on an object without a child array is
   * applied in place through the context's `$filter`. Otherwise the object is drawn into a pooled
   * off-screen buffer sized to its bounds, composited back with one more call only if something was
   * drawn, and the buffer goes back to the pool either way.
   */
  function DrawWithFilter(obj: DisplayObject, buf: Buffer, sh: Shared, pass: Pass, matrix: Matrix,
                          clip: Option<Region>, root: Option<nat>): (out: Out)
    requires obj.filters.Some?
    ensures Keeps(buf, sh, out, MaskFree(obj))
    ensures FilterInPlace(obj) ==>
      out.sh.pool == sh.pool && out.sh.ctx.filter.None? && (obj.blendMode != 0 ==> out.sh.ctx.op == DefaultOp)
    ensures !FilterInPlace(obj) ==>
      && |out.sh.pool| > 0
      && out.sh.pool[|out.sh.pool| - 1].width == FilterRegion(obj).Width()
      && out.sh.pool[|out.sh.pool| - 1].height == FilterRegion(obj).Height()
      && out.calls != 1
      && (out.calls == 0 ==> out.buf == buf)
    decreases obj, 3, 0
  {
    var filters := obj.filters.value;
    var hasBlend := obj.blendMode != 0;
    var op := CompositeFor(obj.blendMode);
    if FilterInPlace(obj) then
      var c1 := if hasBlend then sh.ctx.(op := op) else sh.ctx;
      var inner := DrawDisplayObject(obj, buf, sh.(ctx := c1.(filter := Some(filters[0]))), pass, matrix, obj.displayList, clip, root);
      var c2 := inner.sh.ctx.(filter := None);
      var c3 := if hasBlend then c2.(op := DefaultOp) else c2;
      Out(inner.calls, inner.buf, inner.sh.(ctx := c3))
    else
      var region := FilterRegion(obj);
      var taken := CreateRenderBuffer(sh.pool, region.Width(), region.Height());
      var inner := DrawDisplayObject(obj, SetTransform(taken.buffer, Offset(region)), sh.(pool := taken.pool), pass,
                                     Offset(region), obj.displayList, Some(region), root);
      var pool := inner.sh.pool + [inner.buf];
      if inner.calls > 0 then
        var c1 := if hasBlend then inner.sh.ctx.(op := op) else inner.sh.ctx;
        var b := SetTransform(SetAlpha(buf, 1.0), Translation(region.minX as real + matrix.tx, region.minY as real + matrix.ty));
        // drawTargetWidthFilters(filters, displayBuffer)
        var c2 := if hasBlend then c1.(op := DefaultOp) else c1;
        Out(inner.calls + 1, b, inner.sh.(ctx := c2, pool := pool))
      else
        Out(0, buf, inner.sh.(pool := pool))
  }

  /**
   * `drawWithClip` (lines 272-468): blend modes and masks. Returns zero calls and visits nothing when the
   * mask is degenerate, the clip is empty or misses the active clip, or no dirty region touches the area.
   * Otherwise it draws in place (no mask, no children) or composites through off-screen buffers.
   */
  function DrawWithClip(obj: DisplayObject, buf: Buffer, sh: Shared, pass: Pass, matrix: Matrix,
                        clip: Option<Region>, root: Option<nat>): (out: Out)
    ensures Keeps(buf, sh, out, MaskFree(obj))
    ensures ClipSkipped(obj, clip, pass) ==> out == Out(0, buf, sh)
    ensures ClipRect(obj).Some? && obj.mask.Some? &&
            !Intersects(UpdateRegion(ClipRect(obj).value, ClipMatrix(obj, pass.env)), MaskRegion(obj.mask.value)) ==>
              out == Out(0, buf, sh)
    ensures !ClipSkipped(obj, clip, pass) && !ClipInPlace(obj) ==>
      && out.calls != 1
      && |out.sh.pool| > 0
      && out.sh.pool[|out.sh.pool| - 1].width == ClipArea(obj, pass.env).Width()
      && out.sh.pool[|out.sh.pool| - 1].height == ClipArea(obj, pass.env).Height()
      && out.sh.ctx.op == DefaultOp
    decreases obj, 3, 0
  {
    if ClipSkipped(obj, clip, pass) then Out(0, buf, sh)
    else if ClipInPlace(obj) then ClipDirect(obj, buf, sh, pass, matrix)
    else ClipOffscreen(obj, buf, sh, pass, matrix, root)
  }

  /**
   * Lines 367-388: no mask and no children. The object is drawn straight into the destination inside a
   * mask push for its scroll rect, with its blend mode around the draw, and with no render-texture root.
   */
  function ClipDirect(obj: DisplayObject, buf: Buffer, sh: Shared, pass: Pass, matrix: Matrix): (out: Out)
    requires ClipInPlace(obj)
    ensures Keeps(buf, sh, out, MaskFree(obj))
    ensures obj.blendMode != 0 ==> out.sh.ctx.op == DefaultOp
    decreases obj, 2, 0
  {
    var area := ClipArea(obj, pass.env);
    var hasBlend := obj.blendMode != 0;
    var clipped := ClipRect(obj).Some?;
    var b1 := if clipped then PushMask(SetTransform(buf, AreaTransform(obj, pass.env, area))) else buf;
    var c1 := if hasBlend then sh.ctx.(op := CompositeFor(obj.blendMode)) else sh.ctx;
    var inner := DrawDisplayObject(obj, b1, sh.(ctx := c1), pass, matrix, obj.displayList, Some(area), None);
    var c2 := if hasBlend then inner.sh.ctx.(op := DefaultOp) else inner.sh.ctx;
    var b2 := if clipped then PopMask(inner.buf) else inner.buf;
    Out(inner.calls, b2, inner.sh.(ctx := c2))
  }

  /**
   * Lines 389-467: the object is drawn into a pooled buffer the size of the area; the mask, if any, is
   * applied to it; the composite op is reset; the result is composited back with one more call when
   * anything was drawn; the content buffer goes back to the pool.
   */
  function ClipOffscreen(obj: DisplayObject, buf: Buffer, sh: Shared, pass: Pass, matrix: Matrix, root: Option<nat>): (out: Out)
    ensures Keeps(buf, sh, out, MaskFree(obj))
    ensures out.calls != 1
    ensures |out.sh.pool| > 0
    ensures out.sh.pool[|out.sh.pool| - 1].width == ClipArea(obj, pass.env).Width()
    ensures out.sh.pool[|out.sh.pool| - 1].height == ClipArea(obj, pass.env).Height()
    ensures out.sh.ctx.op == DefaultOp
    decreases obj, 2, 0
  {
    var area := ClipArea(obj, pass.env);
    var taken := CreateRenderBuffer(sh.pool, area.Width(), area.Height());
    var content := DrawDisplayObject(obj, SetTransform(taken.buffer, Offset(area)), sh.(pool := taken.pool), pass,
                                     Offset(area), obj.displayList, Some(area), root);
    var masked := MaskPass(obj, content.buf, content.sh, pass, area, root);
    var total := content.calls + masked.calls;
    var ctx := masked.sh.ctx.(op := DefaultOp);
    var back := CompositeBack(obj, buf, ctx, masked.buf, total, area, pass.env, matrix);
    Out(back.calls, back.buf, masked.sh.(ctx := back.ctx, pool := masked.sh.pool + [back.offscreen]))
  }

  /**
   * Lines 400-431: the mask is drawn into a second pooled buffer; when that drew anything, its calls are
   * added and the content buffer is cut to the mask with "destination-in". The mask buffer goes back
   * to the pool either way. The first `offsetM` is overwritten here without being released.
   */
  function MaskPass(obj: DisplayObject, content: Buffer, sh: Shared, pass: Pass, area: Region, root: Option<nat>): (out: Out)
    ensures Keeps(content, sh, out, obj.mask.None?)
    ensures obj.mask.None? ==> out == Out(0, content, sh)
    ensures obj.mask.Some? ==>
      && out.sh.leakedMatrices >= sh.leakedMatrices + 1
      && (MaskFree(obj.mask.value) ==> out.sh.leakedMatrices == sh.leakedMatrices + 1)
      && |out.sh.pool| > 0
      && out.sh.pool[|out.sh.pool| - 1].width == area.Width()
      && out.sh.pool[|out.sh.pool| - 1].height == area.Height()
    decreases obj, 1, 1
  {
    if obj.mask.None? then Out(0, content, sh)
    else
      var mask := obj.mask.value;
      var taken := CreateRenderBuffer(sh.pool, area.Width(), area.Height());
      var drawn := DrawDisplayObject(mask, SetTransform(taken.buffer, Offset(area)),
                                     sh.(pool := taken.pool, leakedMatrices := sh.leakedMatrices + 1), pass,
                                     Offset(area), mask.displayList, Some(area), root);
      var pool := drawn.sh.pool + [drawn.buf];
      if drawn.calls > 0 then
        // drawTexture(maskBuffer) under "destination-in", then back to "source-over"
        var c := drawn.sh.ctx.(op := DestinationIn);
        var cut := SetAlpha(SetTransform(content, Matrix(1.0, 0.0, 0.0, -1.0, 0.0, drawn.buf.height as real)), 1.0);
        Out(drawn.calls, cut, drawn.sh.(ctx := c.(op := SourceOver), pool := pool))
      else
        Out(0, content, drawn.sh.(pool := pool))
  }

  /**
   * `drawWithScrollRect` (lines 473-551): returns zero calls without recursing on any early exit.
   * Otherwise it clips with a hardware scissor when `UseScissor` holds and with a mask push
   * otherwise, draws the object with its region as the clip, and undoes the mechanism it chose.
   */
  function DrawWithScrollRect(obj: DisplayObject, buf: Buffer, sh: Shared, pass: Pass, matrix: Matrix,
                              clip: Option<Region>, root: Option<nat>): (out: Out)
    requires HasScrollRect(obj)
    ensures Keeps(buf, sh, out, MaskFree(obj))
    ensures ScrollSkipped(obj, clip, pass, root) ==> out == Out(0, buf, sh)
    ensures !ScrollSkipped(obj, clip, pass, root) ==>
      out.buf.transform == ScrollPlacement(ScrollMatrix(obj, root, pass.env), matrix)
    decreases obj, 3, 0
  {
    if ScrollSkipped(obj, clip, pass, root) then Out(0, buf, sh)
    else
      var region := ScrollRegion(obj, root, pass.env);
      var m := ScrollMatrix(obj, root, pass.env);
      var placed := ScrollPlacement(m, matrix);
      var scissor := UseScissor(buf, m);
      var inner := DrawDisplayObject(obj, ScrollClipped(buf, m, matrix), sh, pass, matrix, obj.displayList, Some(region), root);
      var b3 := SetTransform(inner.buf, placed);
      var b4 := if scissor then b3.(hasScissor := false) else PopMask(b3);
      Out(inner.calls, b4, inner.sh)
  }

  // ----- the entry point (lines 57-85) -----

  datatype RenderResult = RenderResult(nestLevel: nat, calls: nat, buf: Buffer, sh: Shared)

  /**
   * `render`: raises the nesting level, walks the tree from `obj` with no cached surface and no clip,
   * lowers the level again, and when that returns it to 0 trims the pool to its first six buffers and
   * shrinks each of them to 0x0. A render-texture pass uses `obj` as the root and has no dirty list.
   */
  function Render(nestLevel: nat, obj: DisplayObject, buf: Buffer, sh: Shared, matrix: Matrix,
                  dirty: Option<seq<Region>>, forRenderTexture: bool, env: Env): (r: RenderResult)
    ensures r.nestLevel == nestLevel
    ensures r.buf.clipDepth == buf.clipDepth && r.buf.hasScissor == buf.hasScissor
    ensures nestLevel == 0 ==>
      && |r.sh.pool| <= PoolCap
      && forall i :: 0 <= i < |r.sh.pool| ==> r.sh.pool[i].width == 0 && r.sh.pool[i].height == 0
    ensures nestLevel > 0 ==> |r.sh.pool| >= |sh.pool|
    ensures PoolClean(sh.pool) ==> PoolClean(r.sh.pool)
    ensures ContextKept(sh.ctx, r.sh.ctx)
  {
    var level := nestLevel + 1;
    var root := if forRenderTexture then Some(obj.id) else None;
    var out := DrawDisplayObject(obj, buf, sh, Pass(dirty, env), matrix, None, None, root);
    var after := level - 1;
    var pool := if after == 0 then TrimPool(out.sh.pool) else out.sh.pool;
    RenderResult(after, out.calls, out.buf, out.sh.(pool := pool))
  }
}

=== FILE: renderer_lemmas.dfy ===
/**
 * Properties of the traversal that relate several calls.
 *
 * The main one: the number of draw calls a subtree reports depends only on the tree, the dirty list,
 * the active clip and the render-texture root. It does not depend on the destination buffer, on which
 * buffers happen to sit in the pool, on the context, or on the matrix the subtree is placed with.
 */
module RendererLemmas {
  import opened Common
  import opened Geometry
  import opened Buffers
  import opened RenderNodes
  import opened DisplayTree
  import opened Renderer

  lemma {:induction false} DrawCallsIndependent(obj: DisplayObject, b1: Buffer, s1: Shared, b2: Buffer, s2: Shared,
                                                pass: Pass, m1: Matrix, m2: Matrix,
                                                displayList: Option<DisplayList>, clip: Option<Region>, root: Option<nat>)
    ensures DrawDisplayObject(obj, b1, s1, pass, m1, displayList, clip, root).calls
         == DrawDisplayObject(obj, b2, s2, pass, m2, displayList, clip, root).calls
    decreases obj, 1, 0
  {
    if !(displayList.Some? && root.None?) {
      var o1 := DrawOwnNode(obj, b1, s1, pass, m1, displayList, clip, root);
      var o2 := DrawOwnNode(obj, b2, s2, pass, m2, displayList, clip, root);
      ChildrenCallsIndependent(obj, 0, o1.buf, o1.sh, o2.buf, o2.sh, pass, m1, m2, clip, root);
    }
  }

  lemma {:induction false} ChildrenCallsIndependent(obj: DisplayObject, i: nat, b1: Buffer, s1: Shared, b2: Buffer, s2: Shared,
                                                    pass: Pass, m1: Matrix, m2: Matrix, clip: Option<Region>, root: Option<nat>)
    requires i <= ChildCount(obj)
    ensures DrawChildren(obj, i, b1, s1, pass, m1, clip, root).calls
         == DrawChildren(obj, i, b2, s2, pass, m2, clip, root).calls
    decreases obj, 0, ChildCount(obj) - i
  {
    if i < ChildCount(obj) {
      var child := ChildAt(obj, i);
      ChildCallsIndependent(child, b1, s1, b2, s2, pass, m1, m2, clip, root);
      var f1 := DrawChild(child, b1, s1, pass, m1, clip, root);
      var f2 := DrawChild(child, b2, s2, pass, m2, clip, root);
      ChildrenCallsIndependent(obj, i + 1, f1.buf, f1.sh, f2.buf, f2.sh, pass, m1, m2, clip, root);
    }
  }

  lemma {:induction false} ChildCallsIndependent(child: DisplayObject, b1: Buffer, s1: Shared, b2: Buffer, s2: Shared,
                                                 pass: Pass, m1: Matrix, m2: Matrix, clip: Option<Region>, root: Option<nat>)
    ensures DrawChild(child, b1, s1, pass, m1, clip, root).calls
         == DrawChild(child, b2, s2, pass, m2, clip, root).calls
    decreases child, 4, 0
  {
    match Route(child, root)
    case Skipped =>
    case ViaFilter => FilterCallsIndependent(child, b1, s1, b2, s2, pass, m1, m2, clip, root);
    case ViaClip => ClipCallsIndependent(child, b1, s1, b2, s2, pass, m1, m2, clip, root);
    case ViaScrollRect => ScrollCallsIndependent(child, b1, s1, b2, s2, pass, m1, m2, clip, root);
    case Direct => DrawCallsIndependent(child, b1, s1, b2, s2, pass, m1, m2, child.displayList, clip, root);
  }

  lemma {:induction false} FilterCallsIndependent(obj: DisplayObject, b1: Buffer, s1: Shared, b2: Buffer, s2: Shared,
                                                  pass: Pass, m1: Matrix, m2: Matrix, clip: Option<Region>, root: Option<nat>)
    requires obj.filters.Some?
    ensures DrawWithFilter(obj, b1, s1, pass, m1, clip, root).calls
         == DrawWithFilter(obj, b2, s2, pass, m2, clip, root).calls
    decreases obj, 3, 0
  {
    var filters := obj.filters.value;
    var hasBlend := obj.blendMode != 0;
    var op := CompositeFor(obj.blendMode);
    if FilterInPlace(obj) {
      var c1 := if hasBlend then s1.ctx.(op := op) else s1.ctx;
      var c2 := if hasBlend then s2.ctx.(op := op) else s2.ctx;
      DrawCallsIndependent(obj, b1, s1.(ctx := c1.(filter := Some(filters[0]))), b2, s2.(ctx := c2.(filter := Some(filters[0]))),
                           pass, m1, m2, obj.displayList, clip, root);
    } else {
      var region := FilterRegion(obj);
      var t1 := CreateRenderBuffer(s1.pool, region.Width(), region.Height());
      var t2 := CreateRenderBuffer(s2.pool, region.Width(), region.Height());
      DrawCallsIndependent(obj, SetTransform(t1.buffer, Offset(region)), s1.(pool := t1.pool),
                           SetTransform(t2.buffer, Offset(region)), s2.(pool := t2.pool),
                           pass, Offset(region), Offset(region), obj.displayList, Some(region), root);
    }
  }

  lemma {:induction false} ClipCallsIndependent(obj: DisplayObject, b1: Buffer, s1: Shared, b2: Buffer, s2: Shared,
                                                pass: Pass, m1: Matrix, m2: Matrix, clip: Option<Region>, root: Option<nat>)
    ensures DrawWithClip(obj, b1, s1, pass, m1, clip, root).calls
         == DrawWithClip(obj, b2, s2, pass, m2, clip, root).calls
    decreases obj, 3, 0
  {
    if ClipSkipped(obj, clip, pass) {
    } else if ClipInPlace(obj) {
      ClipDirectCallsIndependent(obj, b1, s1, b2, s2, pass, m1, m2);
    } else {
      ClipOffscreenCallsIndependent(obj, b1, s1, b2, s2, pass, m1, m2, root);
    }
  }

  lemma {:induction false} ClipDirectCallsIndependent(obj: DisplayObject, b1: Buffer, s1: Shared, b2: Buffer, s2: Shared,
                                                      pass: Pass, m1: Matrix, m2: Matrix)
    requires ClipInPlace(obj)
    ensures ClipDirect(obj, b1, s1, pass, m1).calls == ClipDirect(obj, b2, s2, pass, m2).calls
    decreases obj, 2, 0
  {
    var area := ClipArea(obj, pass.env);
    var hasBlend := obj.blendMode != 0;
    var clipped := ClipRect(obj).Some?;
    var a1 := if clipped then PushMask(SetTransform(b1, AreaTransform(obj, pass.env, area))) else b1;
    var a2 := if clipped then PushMask(SetTransform(b2, AreaTransform(obj, pass.env, area))) else b2;
    var c1 := if hasBlend then s1.ctx.(op := CompositeFor(obj.blendMode)) else s1.ctx;
    var c2 := if hasBlend then s2.ctx.(op := CompositeFor(obj.blendMode)) else s2.ctx;
    DrawCallsIndependent(obj, a1, s1.(ctx := c1), a2, s2.(ctx := c2), pass, m1, m2, obj.displayList, Some(area), None);
  }

  lemma {:induction false} ClipOffscreenCallsIndependent(obj: DisplayObject, b1: Buffer, s1: Shared, b2: Buffer, s2: Shared,
                                                         pass: Pass, m1: Matrix, m2: Matrix, root: Option<nat>)
    ensures ClipOffscreen(obj, b1, s1, pass, m1, root).calls == ClipOffscreen(obj, b2, s2, pass, m2, root).calls
    decreases obj, 2, 0
  {
    var area := ClipArea(obj, pass.env);
    var t1 := CreateRenderBuffer(s1.pool, area.Width(), area.Height());
    var t2 := CreateRenderBuffer(s2.pool, area.Width(), area.Height());
    DrawCallsIndependent(obj, SetTransform(t1.buffer, Offset(area)), s1.(pool := t1.pool),
                         SetTransform(t2.buffer, Offset(area)), s2.(pool := t2.pool),
                         pass, Offset(area), Offset(area), obj.displayList, Some(area), root);
    var k1 := DrawDisplayObject(obj, SetTransform(t1.buffer, Offset(area)), s1.(pool := t1.pool), pass,
                                Offset(area), obj.displayList, Some(area), root);
    var k2 := DrawDisplayObject(obj, SetTransform(t2.buffer, Offset(area)), s2.(pool := t2.pool), pass,
                                Offset(area), obj.displayList, Some(area), root);
    MaskPassCallsIndependent(obj, k1.buf, k1.sh, k2.buf, k2.sh, pass, area, root);
    assert k1.calls + MaskPass(obj, k1.buf, k1.sh, pass, area, root).calls
        == k2.calls + MaskPass(obj, k2.buf, k2.sh, pass, area, root).calls;
  }

  lemma {:induction false} MaskPassCallsIndependent(obj: DisplayObject, b1: Buffer, s1: Shared, b2: Buffer, s2: Shared,
                                                    pass: Pass, area: Region, root: Option<nat>)
    ensures MaskPass(obj, b1, s1, pass, area, root).calls == MaskPass(obj, b2, s2, pass, area, root).calls
    decreases obj, 1, 1
  {
    if obj.mask.Some? {
      var mask := obj.mask.value;
      var t1 := CreateRenderBuffer(s1.pool, area.Width(), area.Height());
      var t2 := CreateRenderBuffer(s2.pool, area.Width(), area.Height());
      DrawCallsIndependent(mask, SetTransform(t1.buffer, Offset(area)), s1.(pool := t1.pool, leakedMatrices := s1.leakedMatrices + 1),
                           SetTransform(t2.buffer, Offset(area)), s2.(pool := t2.pool, leakedMatrices := s2.leakedMatrices + 1),
                           pass, Offset(area), Offset(area), mask.displayList, Some(area), root);
    }
  }

  lemma {:induction false} ScrollCallsIndependent(obj: DisplayObject, b1: Buffer, s1: Shared, b2: Buffer, s2: Shared,
                                                  pass: Pass, m1: Matrix, m2: Matrix, clip: Option<Region>, root: Option<nat>)
    requires HasScrollRect(obj)
    ensures DrawWithScrollRect(obj, b1, s1, pass, m1, clip, root).calls
         == DrawWithScrollRect(obj, b2, s2, pass, m2, clip, root).calls
    decreases obj, 3, 0
  {
    if !ScrollSkipped(obj, clip, pass, root) {
      var region := ScrollRegion(obj, root, pass.env);
      var m := ScrollMatrix(obj, root, pass.env);
      DrawCallsIndependent(obj, ScrollClipped(b1, m, m1), s1, ScrollClipped(b2, m, m2), s2,
                           pass, m1, m2, obj.displayList, Some(region), root);
    }
  }

  /** Children from index `i` on that are all hidden are neither drawn nor counted, and change nothing. */
  lemma {:induction false} HiddenChildrenDrawNothing(obj: DisplayObject, i: nat, buf: Buffer, sh: Shared, pass: Pass,
                                                     matrix: Matrix, clip: Option<Region>, root: Option<nat>)
    requires i <= ChildCount(obj)
    requires forall k :: i <= k < ChildCount(obj) ==> Hidden(ChildAt(obj, k))
    ensures DrawChildren(obj, i, buf, sh, pass, matrix, clip, root) == Out(0, buf, sh)
    decreases ChildCount(obj) - i
  {
    if i < ChildCount(obj) {
      HiddenChildSkipped(obj, i, buf, sh, pass, matrix, clip, root);
      HiddenChildrenDrawNothing(obj, i + 1, buf, sh, pass, matrix, clip, root);
    }
  }

  /**
   * A hidden child is skipped: the loop from its index gives exactly what the loop from the next
   * index gives on the same buffer and state.
   */
  lemma HiddenChildSkipped(obj: DisplayObject, i: nat, buf: Buffer, sh: Shared, pass: Pass,
                           matrix: Matrix, clip: Option<Region>, root: Option<nat>)
    requires i < ChildCount(obj) && Hidden(ChildAt(obj, i))
    ensures DrawChildren(obj, i, buf, sh, pass, matrix, clip, root) == DrawChildren(obj, i + 1, buf, sh, pass, matrix, clip, root)
  {
    assert DrawChild(ChildAt(obj, i), buf, sh, pass, matrix, clip, root) == Out(0, buf, sh);
  }

  /**
   * An object whose children are all hidden and whose own node is not drawn reports no draw calls
   * and leaves the buffer and shared state exactly as it found them.
   */
  lemma HiddenSubtreeDrawsNothing(obj: DisplayObject, buf: Buffer, sh: Shared, pass: Pass, matrix: Matrix, clip: Option<Region>)
    requires forall k :: 0 <= k < ChildCount(obj) ==> Hidden(ChildAt(obj, k))
    requires !OwnNodeDrawn(obj, pass, None, clip, None)
    ensures DrawDisplayObject(obj, buf, sh, pass, matrix, None, clip, None) == Out(0, buf, sh)
  {
    HiddenChildrenDrawNothing(obj, 0, buf, sh, pass, matrix, clip, None);
  }

  /**
   * The count `drawWithFilter` reports, in terms of drawing the object straight onto the caller's own
   * buffer and state: in place it is that count; off-screen it is that count under the filter region,
   * plus one composite call only when the object drew something.
   */
  lemma FilterCountFollowsInner(obj: DisplayObject, buf: Buffer, sh: Shared, pass: Pass, matrix: Matrix,
                                clip: Option<Region>, root: Option<nat>)
    requires obj.filters.Some?
    ensures FilterInPlace(obj) ==>
      DrawWithFilter(obj, buf, sh, pass, matrix, clip, root).calls
      == DrawDisplayObject(obj, buf, sh, pass, matrix, obj.displayList, clip, root).calls
    ensures !FilterInPlace(obj) ==>
      var k := DrawDisplayObject(obj, buf, sh, pass, matrix, obj.displayList, Some(FilterRegion(obj)), root).calls;
      DrawWithFilter(obj, buf, sh, pass, matrix, clip, root).calls == (if k > 0 then k + 1 else 0)
  {
    var filters := obj.filters.value;
    if FilterInPlace(obj) {
      var c1 := if obj.blendMode != 0 then sh.ctx.(op := CompositeFor(obj.blendMode)) else sh.ctx;
      DrawCallsIndependent(obj, buf, sh.(ctx := c1.(filter := Some(filters[0]))), buf, sh,
                           pass, matrix, matrix, obj.displayList, clip, root);
    } else {
      var region := FilterRegion(obj);
      var taken := CreateRenderBuffer(sh.pool, region.Width(), region.Height());
      DrawCallsIndependent(obj, SetTransform(taken.buffer, Offset(region)), sh.(pool := taken.pool), buf, sh,
                           pass, Offset(region), matrix, obj.displayList, Some(region), root);
    }
  }

  /**
   * `drawWithScrollRect` reports exactly what drawing the object onto the caller's own buffer and state
   * reports with its scroll region as the clip, whichever clipping mechanism was chosen.
   */
  lemma ScrollCountIsInner(obj: DisplayObject, buf: Buffer, sh: Shared, pass: Pass, matrix: Matrix,
                           clip: Option<Region>, root: Option<nat>)
    requires HasScrollRect(obj)
    ensures !ScrollSkipped(obj, clip, pass, root) ==>
      DrawWithScrollRect(obj, buf, sh, pass, matrix, clip, root).calls
      == DrawDisplayObject(obj, buf, sh, pass, matrix, obj.displayList, Some(ScrollRegion(obj, root, pass.env)), root).calls
  {
    if !ScrollSkipped(obj, clip, pass, root) {
      var m := ScrollMatrix(obj, root, pass.env);
      DrawCallsIndependent(obj, ScrollClipped(buf, m, matrix), sh, buf, sh, pass, matrix, matrix,
                           obj.displayList, Some(ScrollRegion(obj, root, pass.env)), root);
    }
  }

  /** Reference count for the child loop: each child from index `i` on drawn by itself onto the same buffer and state. */
  function ChildCallsFrom(obj: DisplayObject, i: nat, buf: Buffer, sh: Shared, pass: Pass, matrix: Matrix,
                          clip: Option<Region>, root: Option<nat>): nat
    requires i <= ChildCount(obj)
    decreases ChildCount(obj) - i
  {
    if i == ChildCount(obj) then 0
    else DrawChild(ChildAt(obj, i), buf, sh, pass, matrix, clip, root).calls
         + ChildCallsFrom(obj, i + 1, buf, sh, pass, matrix, clip, root)
  }

  /**
   * The child loop's count is the sum of the children's own counts: threading the buffer and state from
   * one child to the next changes no child's count.
   */
  lemma {:induction false} ChildrenCountIsSum(obj: DisplayObject, i: nat, buf: Buffer, sh: Shared, pass: Pass,
                                              matrix: Matrix, clip: Option<Region>, root: Option<nat>)
    requires i <= ChildCount(obj)
    ensures DrawChildren(obj, i, buf, sh, pass, matrix, clip, root).calls
         == ChildCallsFrom(obj, i, buf, sh, pass, matrix, clip, root)
    decreases ChildCount(obj) - i
  {
    if i < ChildCount(obj) {
      var first := DrawChild(ChildAt(obj, i), buf, sh, pass, matrix, clip, root);
      ChildrenCallsIndependent(obj, i + 1, first.buf, first.sh, buf, sh, pass, matrix, matrix, clip, root);
      ChildrenCountIsSum(obj, i + 1, buf, sh, pass, matrix, clip, root);
    }
  }

  /**
   * The count the mask pass adds: nothing without a mask; otherwise the mask's own count, drawn onto
   * the pass's own buffer and state under the area. A mask that drew nothing adds nothing.
   */
  lemma MaskCountIsInner(obj: DisplayObject, content: Buffer, sh: Shared, pass: Pass, area: Region, root: Option<nat>)
    ensures obj.mask.None? ==> MaskPass(obj, content, sh, pass, area, root).calls == 0
    ensures obj.mask.Some? ==>
      MaskPass(obj, content, sh, pass, area, root).calls
      == DrawDisplayObject(obj.mask.value, content, sh, pass, Offset(area), obj.mask.value.displayList, Some(area), root).calls
  {
    if obj.mask.Some? {
      var mask := obj.mask.value;
      var taken := CreateRenderBuffer(sh.pool, area.Width(), area.Height());
      DrawCallsIndependent(mask, SetTransform(taken.buffer, Offset(area)),
                           sh.(pool := taken.pool, leakedMatrices := sh.leakedMatrices + 1), content, sh,
                           pass, Offset(area), Offset(area), mask.displayList, Some(area), root);
    }
  }

  /**
   * The count `drawWithClip` reports, measured against drawing onto the caller's own buffer and state
   * under the clip area. In place, it is the object's count with no render-texture root, whatever root
   * the caller had. Off-screen, with `k` the object's count plus the mask's count, it is `k + 1` when `k`
   * is positive and 0 otherwise.
   */
  lemma ClipCountFollowsInner(obj: DisplayObject, buf: Buffer, sh: Shared, pass: Pass, matrix: Matrix,
                              clip: Option<Region>, root: Option<nat>)
    ensures ClipSkipped(obj, clip, pass) ==> DrawWithClip(obj, buf, sh, pass, matrix, clip, root).calls == 0
    ensures !ClipSkipped(obj, clip, pass) && ClipInPlace(obj) ==>
      DrawWithClip(obj, buf, sh, pass, matrix, clip, root).calls
      == DrawDisplayObject(obj, buf, sh, pass, matrix, obj.displayList, Some(ClipArea(obj, pass.env)), None).calls
    ensures !ClipSkipped(obj, clip, pass) && !ClipInPlace(obj) ==>
      DrawWithClip(obj, buf, sh, pass, matrix, clip, root).calls == OffscreenCount(obj, buf, sh, pass, matrix, root)
  {
    if !ClipSkipped(obj, clip, pass) {
      if ClipInPlace(obj) {
        ClipDirectCountIsInner(obj, buf, sh, pass, matrix);
      } else {
        ClipOffscreenCountFollowsInner(obj, buf, sh, pass, matrix, root);
      }
    }
  }

  /**
   * The count an off-screen clip pass reports when its content and mask counts are measured on the
   * caller's own buffer and state: `k` is the object's count under the clip area plus the mask's,
   * and one composite call is added when `k` is positive.
   */
  function OffscreenCount(obj: DisplayObject, buf: Buffer, sh: Shared, pass: Pass, matrix: Matrix, root: Option<nat>): nat {
    var area := ClipArea(obj, pass.env);
    var k := DrawDisplayObject(obj, buf, sh, pass, matrix, obj.displayList, Some(area), root).calls
           + (if obj.mask.Some?
              then DrawDisplayObject(obj.mask.value, buf, sh, pass, matrix, obj.mask.value.displayList, Some(area), root).calls
              else 0);
    if k > 0 then k + 1 else 0
  }

  /** In place, the count is the object's own, drawn with the clip area and without a render-texture root. */
  lemma ClipDirectCountIsInner(obj: DisplayObject, buf: Buffer, sh: Shared, pass: Pass, matrix: Matrix)
    requires ClipInPlace(obj)
    ensures ClipDirect(obj, buf, sh, pass, matrix).calls
         == DrawDisplayObject(obj, buf, sh, pass, matrix, obj.displayList, Some(ClipArea(obj, pass.env)), None).calls
  {
    var area := ClipArea(obj, pass.env);
    var b1 := if ClipRect(obj).Some? then PushMask(SetTransform(buf, AreaTransform(obj, pass.env, area))) else buf;
    var c1 := if obj.blendMode != 0 then sh.ctx.(op := CompositeFor(obj.blendMode)) else sh.ctx;
    DrawCallsIndependent(obj, b1, sh.(ctx := c1), buf, sh, pass, matrix, matrix, obj.displayList, Some(area), None);
  }

  /** Off-screen, the count is the content's and the mask's together, plus one composite call when positive. */
  lemma ClipOffscreenCountFollowsInner(obj: DisplayObject, buf: Buffer, sh: Shared, pass: Pass, matrix: Matrix, root: Option<nat>)
    ensures ClipOffscreen(obj, buf, sh, pass, matrix, root).calls == OffscreenCount(obj, buf, sh, pass, matrix, root)
  {
    var area := ClipArea(obj, pass.env);
    var taken := CreateRenderBuffer(sh.pool, area.Width(), area.Height());
    var content := DrawDisplayObject(obj, SetTransform(taken.buffer, Offset(area)), sh.(pool := taken.pool), pass,
                                     Offset(area), obj.displayList, Some(area), root);
    DrawCallsIndependent(obj, SetTransform(taken.buffer, Offset(area)), sh.(pool := taken.pool), buf, sh,
                         pass, Offset(area), matrix, obj.displayList, Some(area), root);
    MaskCountIsInner(obj, content.buf, content.sh, pass, area, root);
    if obj.mask.Some? {
      var mask := obj.mask.value;
      DrawCallsIndependent(mask, content.buf, content.sh, buf, sh, pass, Offset(area), matrix,
                           mask.displayList, Some(area), root);
    }
  }
}

=== FILE: stages.dfy ===
/**
 * `egret.Stage` (Stage.ts): the construction guard, the property setters, screen-size updates, the
 * stage display rule, and the properties the stage refuses.
 *
 * The global `sys.systemTicker` is reduced to the frame rate it holds (`tickerFrameRate`), and its
 * `requestScreenUpdate` calls are counted. `sys.screenAdapter.calculateStageSize` is an `Adapter`
 * parameter. `$invalidate()` calls and dispatched RESIZE events are counted.
 */
module Stages {
  import opened Common

  /** The `sys.StageBits` flags. */
  datatype StageBit = DirtyFrameRate | DirtyColor | DirtyDisplayRule

  const GuardMessage: string := "The Stage class cannot be instantiated."
  const CannotUseMessage: string := "The Stage class does not implement this property or method."

  /** What `calculateStageSize` returns. */
  datatype StageSize = StageSize(stageWidth: real, stageHeight: real, displayWidth: real, displayHeight: real)

  /** `screenAdapter.calculateStageSize(scaleMode, screenWidth, screenHeight, contentWidth, contentHeight)`. */
  type Adapter = (string, real, real, real, real) -> StageSize

  /** `sys.StageDisplayRule`. */
  datatype DisplayRule = DisplayRule(
    stageWidth: real, stageHeight: real,
    displayX: real, displayY: real,
    displayWidth: real, displayHeight: real,
    contentScaleFactor: real)

  datatype Stage = Stage(
    bits: set<StageBit>,
    /** `$color` */
    color: int,
    tickerFrameRate: real,
    stageWidth: real, stageHeight: real,
    scaleMode: string, resolutionMode: string,
    contentWidth: real, contentHeight: real,
    devicePixelRatio: real,
    screenWidth: real, screenHeight: real,
    /** `$displayRule`: starts as `{}`, with no field set */
    rule: Option<DisplayRule>,
    invalidations: nat,
    resizeEvents: nat,
    screenUpdates: nat)

  /** The initial `$color`, 0xFFFFFFFF, which no int32 equals. */
  const InitialColor: int := 0xFFFF_FFFF

  /** The alpha byte every stored colour carries. */
  const OpaqueAlpha: int := 0xFF00_0000
  const TWO_24: int := 0x100_0000

  /**
   * The constructor (lines 48-58, guard at line 34): throws while the guard is raised; otherwise a stage
   * with the field initialisers of lines 63-238.
   */
  function NewStage(guard: bool, tickerFrameRate: real): (r: Result<Stage>)
    ensures r.Thrown? <==> guard
    ensures guard ==> r.message == GuardMessage
    ensures !guard ==>
      && r.value.bits == {DirtyFrameRate}
      && r.value.color == InitialColor && !IsInt32(r.value.color)
      && r.value.stageWidth == 0.0 && r.value.stageHeight == 0.0
      && r.value.contentWidth == 480.0 && r.value.contentHeight == 800.0
      && r.value.devicePixelRatio == 1.0
      && r.value.scaleMode == "noScale" && r.value.resolutionMode == "standard"
      && r.value.rule.None? && r.value.invalidations == 0 && r.value.resizeEvents == 0
      && r.value.screenWidth == 0.0 && r.value.screenHeight == 0.0 && r.value.screenUpdates == 0
      && r.value.tickerFrameRate == tickerFrameRate
  {
    if guard then Thrown(GuardMessage)
    else Ok(Stage({DirtyFrameRate}, InitialColor, tickerFrameRate, 0.0, 0.0, "noScale", "standard",
                  480.0, 800.0, 1.0, 0.0, 0.0, None, 0, 0, 0))
  }

  /**
   * Line 77-78: `+value >>> 0` then `| 0xFF000000`. JavaScript's `|` yields a signed int32, so the stored
   * colour is the 32-bit pattern with the alpha byte forced to 0xFF, read as a (negative) int32.
   */
  function StoredColor(value: Num): (c: int)
    ensures IsInt32(c) && c < 0
    ensures c % TWO_24 == ToUint32(value) % TWO_24
    ensures (c % TWO_32) / TWO_24 == 0xFF
  {
    var u := ToUint32(value);
    var low := u % TWO_24;
    var c := AsInt32(OpaqueAlpha + low);
    assert c == low - TWO_24;
    c
  }

  /** The `color` setter (lines 76-85): nothing for the colour already stored; otherwise store it, mark DirtyColor, invalidate. */
  function SetColor(s: Stage, value: Num): (r: Stage)
    ensures r.color == StoredColor(value) && IsInt32(r.color)
    ensures StoredColor(value) == s.color ==> r == s
    ensures StoredColor(value) != s.color ==>
      r == s.(color := StoredColor(value), bits := s.bits + {DirtyColor}, invalidations := s.invalidations + 1)
  {
    var c := StoredColor(value);
    if c == s.color then s
    else s.(color := c, bits := s.bits + {DirtyColor}, invalidations := s.invalidations + 1)
  }

  /**
   * Assigning opaque white to a fresh stage is a change: 0xFFFFFFFF is stored as -1, which differs from
   * the initial 0xFFFFFFFF, so DirtyColor is raised and the stage invalidated.
   */
  lemma WhiteOnFreshStageIsAChange(tickerFrameRate: real)
    ensures var s := NewStage(false, tickerFrameRate).value;
            var r := SetColor(s, Finite(4294967295.0));
            r.color == -1 && DirtyColor in r.bits && r.invalidations == 1
  {
    var s := NewStage(false, tickerFrameRate).value;
    assert ToUint32(Finite(4294967295.0)) == 4294967295;
  }

  /** Once any colour has been assigned, assigning it again changes nothing. */
  lemma ColorRepeatIsNoOp(s: Stage, value: Num)
    ensures SetColor(SetColor(s, value), value) == SetColor(s, value)
  {
  }

  /** The `frameRate` getter (line 93-95). */
  function FrameRate(s: Stage): real {
    s.tickerFrameRate
  }

  /**
   * The `frameRate` setter (lines 97-108): NaN becomes 0; non-positive and unchanged rates are ignored;
   * otherwise the ticker takes the rate, DirtyFrameRate is raised and the stage invalidated.
   */
  function SetFrameRate(s: Stage, value: Num): (r: Stage)
    ensures r != s <==> OrZero(value) > 0.0 && OrZero(value) != FrameRate(s)
    ensures r != s ==>
      r == s.(tickerFrameRate := OrZero(value), bits := s.bits + {DirtyFrameRate}, invalidations := s.invalidations + 1)
    ensures FrameRate(s) > 0.0 ==> FrameRate(r) > 0.0
  {
    var v := OrZero(value);
    if v <= 0.0 then s
    else if FrameRate(s) == v then s
    else s.(tickerFrameRate := v, bits := s.bits + {DirtyFrameRate}, invalidations := s.invalidations + 1)
  }

  /**
   * What recomputing the display rule of `s` leaves in `r`: the adapter's stage and display sizes, the
   * display area centred on the screen on both axes, the pixel ratio as content scale only in "high"
   * resolution mode, DirtyDisplayRule raised, one invalidation, one RESIZE exactly when the stage
   * size changed, and every other field as it was.
   */
  predicate Recomputed(s: Stage, r: Stage, adapter: Adapter) {
    var size := adapter(s.scaleMode, s.screenWidth, s.screenHeight, s.contentWidth, s.contentHeight);
    var resized := s.stageWidth != size.stageWidth || s.stageHeight != size.stageHeight;
    && r.rule.Some?
    && r.rule.value.stageWidth == size.stageWidth && r.rule.value.stageHeight == size.stageHeight
    && r.rule.value.displayWidth == size.displayWidth && r.rule.value.displayHeight == size.displayHeight
    && 2.0 * r.rule.value.displayX + size.displayWidth == s.screenWidth
    && 2.0 * r.rule.value.displayY + size.displayHeight == s.screenHeight
    && r.rule.value.contentScaleFactor == (if s.resolutionMode == "high" then s.devicePixelRatio else 1.0)
    && r.stageWidth == size.stageWidth && r.stageHeight == size.stageHeight
    && r.resizeEvents == s.resizeEvents + (if resized then 1 else 0)
    && r.bits == s.bits + {DirtyDisplayRule}
    && r.invalidations == s.invalidations + 1
    && r.(rule := s.rule, bits := s.bits, invalidations := s.invalidations, stageWidth := s.stageWidth,
          stageHeight := s.stageHeight, resizeEvents := s.resizeEvents) == s
  }

  /**
   * `updateStageDisplayRule` (lines 243-266): asks the adapter for the stage size, centres the display
   * area on the screen, uses the pixel ratio as content scale only in "high" resolution mode, always
   * marks DirtyDisplayRule and invalidates, and dispatches RESIZE exactly when the stage size changed.
   */
  function UpdateDisplayRule(s: Stage, adapter: Adapter): (r: Stage)
    ensures Recomputed(s, r, adapter)
    ensures DirtyDisplayRule in r.bits
  {
    var size := adapter(s.scaleMode, s.screenWidth, s.screenHeight, s.contentWidth, s.contentHeight);
    var rule := DisplayRule(size.stageWidth, size.stageHeight,
                            (s.screenWidth - size.displayWidth) * 0.5, (s.screenHeight - size.displayHeight) * 0.5,
                            size.displayWidth, size.displayHeight,
                            if s.resolutionMode == "high" then s.devicePixelRatio else 1.0);
    var marked := s.(rule := Some(rule), bits := s.bits + {DirtyDisplayRule}, invalidations := s.invalidations + 1);
    if s.stageWidth != size.stageWidth || s.stageHeight != size.stageHeight then
      marked.(stageWidth := size.stageWidth, stageHeight := size.stageHeight, resizeEvents := s.resizeEvents + 1)
    else
      marked
  }

  /** Recomputing the rule again with nothing changed dispatches no second RESIZE. */
  lemma SecondUpdateDispatchesNoResize(s: Stage, adapter: Adapter)
    ensures UpdateDisplayRule(UpdateDisplayRule(s, adapter), adapter).resizeEvents == UpdateDisplayRule(s, adapter).resizeEvents
  {
    var r := UpdateDisplayRule(s, adapter);
    assert r.scaleMode == s.scaleMode && r.screenWidth == s.screenWidth && r.screenHeight == s.screenHeight;
    assert r.contentWidth == s.contentWidth && r.contentHeight == s.contentHeight;
  }

  /** The `scaleMode` setter (lines 150-156): nothing for the current mode; otherwise store it and recompute the rule. */
  function SetScaleMode(s: Stage, value: string, adapter: Adapter): (r: Stage)
    ensures value == s.scaleMode ==> r == s
    ensures value != s.scaleMode ==> r.scaleMode == value && Recomputed(s.(scaleMode := value), r, adapter)
    ensures r.resolutionMode == s.resolutionMode && r.color == s.color
  {
    if s.scaleMode == value then s else UpdateDisplayRule(s.(scaleMode := value), adapter)
  }

  /** The `resolutionMode` setter (lines 170-176). */
  function SetResolutionMode(s: Stage, value: string, adapter: Adapter): (r: Stage)
    ensures value == s.resolutionMode ==> r == s
    ensures value != s.resolutionMode ==>
      && r.resolutionMode == value && Recomputed(s.(resolutionMode := value), r, adapter)
      && r.rule.Some? && r.rule.value.contentScaleFactor == (if value == "high" then s.devicePixelRatio else 1.0)
    ensures r.scaleMode == s.scaleMode && r.color == s.color
  {
    if s.resolutionMode == value then s else UpdateDisplayRule(s.(resolutionMode := value), adapter)
  }

  /**
   * `setContentSize` (lines 193-202): NaN becomes 0; nothing happens when both sides are unchanged;
   * otherwise both are stored and the rule recomputed.
   */
  function SetContentSize(s: Stage, width: Num, height: Num, adapter: Adapter): (r: Stage)
    ensures (OrZero(width) == s.contentWidth && OrZero(height) == s.contentHeight) ==> r == s
    ensures r.contentWidth == OrZero(width) && r.contentHeight == OrZero(height)
    ensures (OrZero(width) != s.contentWidth || OrZero(height) != s.contentHeight) ==>
      Recomputed(s.(contentWidth := OrZero(width), contentHeight := OrZero(height)), r, adapter)
  {
    var w := OrZero(width);
    var h := OrZero(height);
    if s.contentWidth == w && s.contentHeight == h then s
    else UpdateDisplayRule(s.(contentWidth := w, contentHeight := h), adapter)
  }

  /**
   * `$updateScreenSize` (lines 221-233): NaN becomes 0; nothing happens when width, height and pixel
   * ratio are all unchanged; otherwise they are stored, the rule recomputed and a screen update requested.
   */
  function UpdateScreenSize(s: Stage, width: Num, height: Num, pixelRatio: Num, adapter: Adapter): (r: Stage)
    ensures r.screenWidth == OrZero(width) && r.screenHeight == OrZero(height) && r.devicePixelRatio == OrZero(pixelRatio)
    ensures (OrZero(width) == s.screenWidth && OrZero(height) == s.screenHeight && OrZero(pixelRatio) == s.devicePixelRatio) ==> r == s
    ensures !(OrZero(width) == s.screenWidth && OrZero(height) == s.screenHeight && OrZero(pixelRatio) == s.devicePixelRatio) ==>
      && r.screenUpdates == s.screenUpdates + 1
      && Recomputed(s.(screenWidth := OrZero(width), screenHeight := OrZero(height), devicePixelRatio := OrZero(pixelRatio)),
                    r.(screenUpdates := s.screenUpdates), adapter)
  {
    var w := OrZero(width);
    var h := OrZero(height);
    var p := OrZero(pixelRatio);
    if w == s.screenWidth && h == s.screenHeight && s.devicePixelRatio == p then s
    else
      var u := UpdateDisplayRule(s.(screenWidth := w, screenHeight := h, devicePixelRatio := p), adapter);
      u.(screenUpdates := u.screenUpdates + 1)
  }

  /** A value a refused property reads as. */
  datatype Value = NumberValue(n: real) | BoolValue(b: bool) | NullValue

  /** The properties `markCannotUse` replaces on the stage (lines 285-302). */
  datatype Refused =
    | Alpha | Visible | X | Y | ScaleX | ScaleY | Rotation | SkewX | SkewY
    | AnchorOffsetX | AnchorOffsetY | CacheAsBitmap | ScrollRect | Filters | BlendMode
    | TouchEnabled | TouchChildren | TransformMatrix

  /** The fixed default each refused property reads as (lines 285-302). */
  function RefusedDefault(p: Refused): (v: Value)
    ensures p in {Alpha, ScaleX, ScaleY} <==> v == NumberValue(1.0)
    ensures p in {X, Y, Rotation, SkewX, SkewY, AnchorOffsetX, AnchorOffsetY} <==> v == NumberValue(0.0)
    ensures p in {Visible, TouchEnabled, TouchChildren} <==> v == BoolValue(true)
    ensures p == CacheAsBitmap <==> v == BoolValue(false)
    ensures p in {ScrollRect, Filters, BlendMode, TransformMatrix} <==> v.NullValue?
  {
    match p
    case Alpha => NumberValue(1.0)
    case Visible => BoolValue(true)
    case X => NumberValue(0.0)
    case Y => NumberValue(0.0)
    case ScaleX => NumberValue(1.0)
    case ScaleY => NumberValue(1.0)
    case Rotation => NumberValue(0.0)
    case SkewX => NumberValue(0.0)
    case SkewY => NumberValue(0.0)
    case AnchorOffsetX => NumberValue(0.0)
    case AnchorOffsetY => NumberValue(0.0)
    case CacheAsBitmap => BoolValue(false)
    case ScrollRect => NullValue
    case Filters => NullValue
    case BlendMode => NullValue
    case TouchEnabled => BoolValue(true)
    case TouchChildren => BoolValue(true)
    case TransformMatrix => NullValue
  }

  /** Reading a refused property (the getter of line 274): its default, whatever the stage holds. */
  function ReadRefused(s: Stage, p: Refused): (v: Value)
    ensures v == RefusedDefault(p)
  {
    RefusedDefault(p)
  }

  /** Assigning a refused property (the setter of line 277): always throws, whatever the value. */
  function WriteRefused(s: Stage, p: Refused, value: Value): (r: Result<Stage>)
    ensures r == Thrown(CannotUseMessage)
  {
    Thrown(CannotUseMessage)
  }
}

=== FILE: textures.dfy ===
/**
 * `egret.Texture` (Texture.ts): a rectangle of a `BitmapData` atlas with its render offsets and sizes.
 *
 * The global `$TextureScaleFactor` is passed in as `scale`, required positive. Real arithmetic stands
 * in for IEEE doubles. The call `sys.BitmapData.$invalidate(this)` is counted in `invalidations`.
 */
module Textures {
  import opened Common

  /** A `BitmapData`, identified by `id`: two values with the same id are the same object. */
  datatype BitmapData = BitmapData(id: nat, width: real, height: real)

  datatype Texture = Texture(
    id: nat,
    /** `_bitmapX`, `_bitmapY`, `_bitmapWidth`, `_bitmapHeight`: the atlas rectangle, in unscaled units */
    bitmapX: real, bitmapY: real, bitmapWidth: real, bitmapHeight: real,
    offsetX: real, offsetY: real,
    textureWidth: real, textureHeight: real,
    sourceWidth: real, sourceHeight: real,
    bitmapData: Option<BitmapData>,
    /** calls made to `sys.BitmapData.$invalidate(this)` */
    invalidations: nat)

  /** `new Texture()`: every number 0 and no bitmap data (lines 66-170). */
  function NewTexture(id: nat): (t: Texture)
    ensures t.id == id && t.bitmapData.None? && t.invalidations == 0
    ensures TextureWidth(t) == 0.0 && TextureHeight(t) == 0.0
    ensures t.bitmapX == 0.0 && t.bitmapY == 0.0 && t.bitmapWidth == 0.0 && t.bitmapHeight == 0.0
    ensures t.offsetX == 0.0 && t.offsetY == 0.0 && t.sourceWidth == 0.0 && t.sourceHeight == 0.0
  {
    Texture(id, 0.0, 0.0, 0.0, 0.0, 0.0, 0.0, 0.0, 0.0, 0.0, 0.0, None, 0)
  }

  /** The `textureWidth` getter (lines 117-123). */
  function TextureWidth(t: Texture): real {
    t.textureWidth
  }

  /** The `textureHeight` getter (lines 140-146). */
  function TextureHeight(t: Texture): real {
    t.textureHeight
  }

  /** `$getScaleBitmapWidth` (line 148): the atlas width in scaled units. */
  function ScaleBitmapWidth(t: Texture, scale: real): real {
    t.bitmapWidth * scale
  }

  /** `$getScaleBitmapHeight` (line 152). */
  function ScaleBitmapHeight(t: Texture, scale: real): real {
    t.bitmapHeight * scale
  }

  /**
   * `$initData` (lines 220-238): the atlas rectangle is stored divided by the scale factor, so the
   * scaled getters give back what was passed in; offsets, texture size and source size are stored as
   * passed; the bitmap data is untouched and the texture is invalidated once.
   */
  function InitData(t: Texture, scale: real,
                    bitmapX: real, bitmapY: real, bitmapWidth: real, bitmapHeight: real,
                    offsetX: real, offsetY: real, textureWidth: real, textureHeight: real,
                    sourceWidth: real, sourceHeight: real): (r: Texture)
    requires scale > 0.0
    ensures r.bitmapX * scale == bitmapX && r.bitmapY * scale == bitmapY
    ensures ScaleBitmapWidth(r, scale) == bitmapWidth && ScaleBitmapHeight(r, scale) == bitmapHeight
    ensures r.offsetX == offsetX && r.offsetY == offsetY
    ensures TextureWidth(r) == textureWidth && TextureHeight(r) == textureHeight
    ensures r.sourceWidth == sourceWidth && r.sourceHeight == sourceHeight
    ensures r.id == t.id && r.bitmapData == t.bitmapData
    ensures r.invalidations == t.invalidations + 1
  {
    Texture(t.id, bitmapX / scale, bitmapY / scale, bitmapWidth / scale, bitmapHeight / scale,
            offsetX, offsetY, textureWidth, textureHeight, sourceWidth, sourceHeight,
            t.bitmapData, t.invalidations + 1)
  }

  /** The message of the `TypeError` a null dereference raises; its exact text is engine-specific. */
  const NullDereference: string := "TypeError"

  /** The texture after an assignment, and the error it threw, if any. */
  datatype Assignment = Assignment(texture: Texture, thrown: Option<string>)

  /**
   * `setBitmapData` (lines 198-204), reached through the `bitmapData` setter (lines 185-187): the whole
   * bitmap becomes the texture, at the origin with no offset; its texture size is the data size times
   * the scale factor and its source size is the data size. A null value is stored first, and then
   * reading its width throws, leaving the rest of the texture as it was.
   */
  function SetBitmapData(t: Texture, scale: real, value: Option<BitmapData>): (r: Assignment)
    requires scale > 0.0
    ensures value.None? ==> r == Assignment(t.(bitmapData := None), Some(NullDereference))
    ensures value.Some? ==>
      var d := value.value;
      var x := r.texture;
      && r.thrown.None?
      && x.bitmapData == Some(d)
      && x.bitmapX == 0.0 && x.bitmapY == 0.0 && x.offsetX == 0.0 && x.offsetY == 0.0
      && TextureWidth(x) == d.width * scale && TextureHeight(x) == d.height * scale
      && ScaleBitmapWidth(x, scale) == d.width * scale && ScaleBitmapHeight(x, scale) == d.height * scale
      && x.bitmapWidth == d.width && x.bitmapHeight == d.height
      && x.sourceWidth == d.width && x.sourceHeight == d.height
      && x.id == t.id && x.invalidations == t.invalidations + 1
  {
    var stored := t.(bitmapData := value);
    if value.None? then Assignment(stored, Some(NullDereference))
    else
      var d := value.value;
      var w := d.width * scale;
      var h := d.height * scale;
      Assignment(InitData(stored, scale, 0.0, 0.0, w, h, 0.0, 0.0, w, h, d.width, d.height), None)
  }

  /** The texture after `dispose`, and the bitmap data whose own `dispose` it called, if any. */
  datatype Disposal = Disposal(texture: Texture, released: Option<BitmapData>)

  /** `dispose` (lines 319-324): releases and forgets the bitmap data when there is one; nothing else changes. */
  function Dispose(t: Texture): (r: Disposal)
    ensures r.released == t.bitmapData
    ensures r.texture == t.(bitmapData := None)
  {
    if t.bitmapData.Some? then Disposal(t.(bitmapData := None), t.bitmapData) else Disposal(t, None)
  }

  /** A second `dispose` releases nothing and changes nothing. */
  lemma DisposeTwiceIsNoOp(t: Texture)
    ensures Dispose(Dispose(t).texture) == Disposal(Dispose(t).texture, None)
  {
  }

  const NotImplemented: string := ""

  /** `getPixel32` (lines 243-245): deprecated, always throws. */
  function GetPixel32(t: Texture, x: real, y: real): (r: Result<seq<real>>)
    ensures r == Thrown(NotImplemented)
  {
    Thrown(NotImplemented)
  }

  /** `getPixels` (lines 266-268): always throws. */
  function GetPixels(t: Texture, x: real, y: real, width: real, height: real): (r: Result<seq<real>>)
    ensures r == Thrown(NotImplemented)
  {
    Thrown(NotImplemented)
  }

  /** `toDataURL` (lines 285-287): always throws. */
  function ToDataURL(t: Texture, kind: string): (r: Result<string>)
    ensures r == Thrown(NotImplemented)
  {
    Thrown(NotImplemented)
  }

  /** `saveToFile` (lines 306-308): always throws. */
  function SaveToFile(t: Texture, kind: string, filePath: string): (r: Result<()>)
    ensures r == Thrown(NotImplemented)
  {
    Thrown(NotImplemented)
  }
}
